=== FILE: README.md ===
# AI ChatHub relay and chat client, modelled in Dafny

AI ChatHub is a browser chat client (`script.js`) backed by an Express relay
(`server/server.js`). The relay forwards a conversation to one of six AI
providers: Gemini, Anthropic, Perplexity, DeepSeek, OpenRouter and OpenAI.
This project models the parts of both that decide what is sent where.

On the server side it models:
- request validation;
- the per-provider request shapes, including the Perplexity turn merging and
  the Anthropic system prompt;
- the API-key checks and the mapping of errors to HTTP statuses;
- the upload allowlist, the extension-to-MIME table, display names, provider
  availability and the model listing.

On the client side it models:
- the chat list and its transitions;
- the history window sent as context;
- the attachment list and its icons;
- the model picker;
- the submit guard, the submit request, and how the reply is recorded.

The environment is a parameter:
- Which API keys are set is a `set<Provider>`.
- What a provider answers is a `CallOutcome`: its text, or the message of the
  error that reaches the handler.
- `Date.now().toString()` is a `newId` argument.

| file | module | what it holds |
|---|---|---|
| `seqs.dfy` | `Seqs` | associativity and identity of `+` on sequences |
| `wrappers.dfy` | `Wrappers` | `Option` and `Result` |
| `text.dfy` | `Text` | `includes`, `startsWith`, `join`, `toLowerCase` and `trim`, as JavaScript defines them |
| `messages.dfy` | `Messages` | the `{ role, content }` turn |
| `perplexity.dfy` | `PerplexityTurns` | `normalizePerplexityMessages`, and an independent run-by-run reference proved equal to it |
| `anthropic.dfy` | `AnthropicPrompt` | the system prompt and user text built by `callAnthropic` |
| `relay.dfy` | `Relay` | the model table, `/api/chat`, error classification, `fileFilter`, `mimetypeMap`, `/api/models` |
| `files.dfy` | `FileSelection` | `handleFileSelect`, the remove button and `getFileIcon` |
| `chats.dfy` | `ChatState` | chats, `getChatHistory`, `formatChatHistoryForProvider`, `createNewChat`, `deleteChat`, `addMessageToState` |
| `client.dfy` | `Client` | the model picker of `loadAvailableModels`, `handleFormSubmit`, and recording the reply |

### How the Perplexity merge treats empty contents

The code appends `"\n\n"` whenever the buffer is already non-empty, whatever
the next content is. So only the empty contents at the front of a run vanish.
An empty content later in the run still adds a separator
(`PerplexityTurns.MergeRun`).

## Model

| member | source | states |
|---|---|---|
| Text.TrimEmptyIff | script.js:396-400 | a trimmed input is empty exactly when every character is JavaScript white space |
| Text.TrimShape | script.js:396 | the trimmed text has no leading or trailing white space and occurs in the input |
| Text.TrimIdempotent | script.js:396 | trimming twice is trimming once |
| Text.LowerIdempotent | server/server.js:445 | lowering an extension twice is lowering it once |
| PerplexityTurns.Emit | server/server.js:294-296 | a buffer becomes exactly one user turn carrying it when it is non-empty, and nothing otherwise |
| PerplexityTurns.SystemPart | server/server.js:280-285 | only a first turn with role "system" is split off |
| PerplexityTurns.MergeRunAppend | server/server.js:292 | appending a content to the buffer is merging one more content into the run |
| PerplexityTurns.RunAgrees | server/server.js:290-302 | from any buffer state, the loop gives what the run-by-run reference gives |
| PerplexityTurns.NormalizeAgrees | server/server.js:279-304 | the output is the system turn followed by the reference of the user/assistant turns, so `prompt` has no influence |
| PerplexityTurns.ReferenceNoAdjacentUsers | server/server.js:290-302 | the reference never places two user turns next to each other |
| PerplexityTurns.ReferenceAssistants | server/server.js:294-298 | the reference keeps every assistant turn, in order |
| PerplexityTurns.NormalizeSystemTurn | server/server.js:281-303 | a leading system turn stays first, and no other system turn survives |
| PerplexityTurns.NormalizeTurns | server/server.js:288-303 | after the system turn: only user and assistant turns, no two user turns adjacent, no empty user turn, never longer than the input |
| PerplexityTurns.NormalizeKeepsAssistants | server/server.js:294-298 | the output's assistant turns are exactly the input's |
| PerplexityTurns.NormalizeIdempotent | server/server.js:279-304 | normalising a normalised list changes nothing |
| AnthropicPrompt.TranscriptLine | server/server.js:251-252 | a line is labelled "Benutzer" exactly for role "user" and "Assistent" for every other role, and after the label and ": " it is the turn's content |
| AnthropicPrompt.SystemPrompt | server/server.js:249-255 | the prompt always starts with the base prompt and is the base prompt alone exactly when there is at most one turn |
| AnthropicPrompt.UserText | server/server.js:220-225 | the user content holds the last turn's content exactly when there is one and it is non-empty |
| AnthropicPrompt.SystemPromptIgnoresLast | server/server.js:251 | the last turn never influences the system prompt |
| AnthropicPrompt.SystemPromptTwoTurns | server/server.js:249-255 | with two turns the prompt is the base prompt, the heading "Vorheriger Gesprächsverlauf:" after a blank line, and the first turn's labelled line |
| AnthropicPrompt.SystemPromptGrows | server/server.js:250-254 | one more turn adds exactly one separator and the line of the previously last turn |
| AnthropicPrompt.SystemPromptMentionsEarlierTurns | server/server.js:250-254 | every turn before the last appears in the prompt as its labelled line |
| Relay.ProviderNameRoundTrip | server/server.js:651-660 | provider names and providers correspond one to one |
| Relay.FindModel | server/server.js:436-437 | a model is found exactly for the ids of the table, with the configuration stored under that id |
| Relay.FallbackMessages | server/server.js:467-485 | the result is never empty: the history when there is one, otherwise a single user turn carrying the prompt |
| Relay.PrepareCallShapes | server/server.js:460-487 | DeepSeek and OpenAI get the history or the prompt alone; OpenRouter gets the history with the prompt appended; Perplexity's request ignores the prompt; Gemini's ignores the history; with no history, Anthropic gets the base prompt and the prompt as text |
| Relay.Validate | server/server.js:433-437 | a missing prompt is refused first, then a missing model, then a model the table lacks (with the list of ids); every refusal is 400 |
| Relay.ClassifyFailure | server/server.js:501-509 | 401 exactly when the message mentions "API key"; 429 exactly when it does not but mentions "quota" or "rate limit"; 500 otherwise, with the message itself only for "not configured" |
| Relay.MissingKeyErrorIsUnauthorized | server/server.js:502-504 | a "… API key not configured" error is reported as 401, never through the "not configured" branch |
| Relay.AnthropicKeyRejected | server/server.js:502 | Anthropic's rejected key, thrown as "Anthropic API key is invalid" (server.js line 272), reaches the client as 401 |
| Relay.AnthropicRateLimited | server/server.js:503 | Anthropic's rate limit, thrown as "Anthropic API rate limit exceeded" (server.js line 273), reaches the client as 429 |
| Relay.Dispatch | server/server.js:460-509 | a provider is called exactly when its key is set, with that provider's request; otherwise 500 names the missing key; a returned text is answered with the requested model and its provider, and a thrown error with its classification |
| Relay.HandleChatStatus | server/server.js:425-511 | the status is one of 200, 400, 401, 429, 500; 400 exactly on failed validation; a call exactly when validation passes and the key is set; 200 exactly when that call returned text |
| Relay.HandleChatForwards | server/server.js:492-509 | once validation passes and the key is set, a returned text is answered with the requested model and the table's provider, and a thrown error with its classification |
| Relay.UnknownModelIsRejected | server/server.js:436-437 | an unknown model is refused with 400 and the full id list before any key is looked at |
| Relay.ConstructorModelAsWritten | server/server.js:436-437 | as written, model "constructor" is answered with 500 "Unknown provider"; corrected, with 400 |
| Relay.AsWrittenAgreesOtherwise | server/server.js:436-437 | apart from inherited object member names, the handler as written and the corrected handler agree |
| Relay.FileFilter | server/server.js:55-76 | a file passes exactly when its MIME type is on the allowlist; a refusal names the type |
| Relay.MimeTypeFor | server/server.js:445-452 | a known extension gives exactly the type the table maps it to, which the upload filter accepts; any other extension gives `application/octet-stream`, which it refuses |
| Relay.MimeTypeIgnoresCase | server/server.js:445 | the extension's letter case does not matter |
| Relay.DisplayName | server/server.js:637-649 | the mapped name where there is one, otherwise the id; never empty for a non-empty id |
| Relay.IsModelAvailable | server/server.js:651-661 | a provider name is available exactly when it names a provider whose key is set |
| Relay.ModelsListing | server/server.js:619-634 | one entry per table row in table order, named by the row's display name, with the row's provider, available exactly when that provider's key is set, never front-end only |
| Relay.ListingNames | server/server.js:637-649 | examples of the listed names: mapped ids show their display name, and the four ids without one are listed under the id itself |
| FileSelection.SelectFilesExtends | script.js:163-172 | selecting keeps the previous selection in place and adds only offered files of at most 10 MB |
| FileSelection.SelectFilesUnique | script.js:169 | selecting never produces two files of the same name |
| FileSelection.SelectFilesComplete | script.js:163-172 | every offered file of at most 10 MB ends up selected by name |
| FileSelection.SelectFilesConcat | script.js:163-172 | selecting from two lists in turn is selecting from both at once |
| FileSelection.SelectFilesIdempotent | script.js:163-172 | choosing the same files again changes nothing |
| FileSelection.AlertsCountLarge | script.js:164-168 | there are exactly as many alerts as files over the limit; each such file gets the alert naming it, every alert names a file over the limit, and there are none when no file is over it |
| FileSelection.RemoveFile | script.js:153 | after removal no file has that name, and exactly the files of other names remain |
| FileSelection.RemoveUndoesOffer | script.js:153-170 | removing a just-added file restores the earlier selection |
| FileSelection.FileIcon | script.js:124-131 | each icon is chosen exactly when its test is the first that matches |
| FileSelection.ScriptTypedAsTextGetsTextIcon | script.js:127-129 | "text/javascript" gets the text icon, because the "text" test comes first |
| ChatState.FindIndex | script.js:344 | the index of the first chat with the id, or none exactly when no chat has it |
| ChatState.AsMessage | script.js:257-260 | sender "user" becomes role "user" and every other sender becomes "assistant", with the content kept |
| ChatState.Window | script.js:257 | the last `maxMessages` entries, or all of them when the limit is 0 or the history is shorter |
| ChatState.GetChatHistory | script.js:255-261 | no chat gives no messages; otherwise the last entries of the history, as messages, within the limit |
| ChatState.GetChatHistoryLength | script.js:257 | the window is as long as the limit allows |
| ChatState.WindowSlides | script.js:255-260 | appending an entry slides the window by one |
| ChatState.FormatChatHistoryForProvider | script.js:264-268 | the history is kept and the current message follows it as one user turn |
| ChatState.CreateNewChat | script.js:329-341 | a chat with the given id, titled "Neuer Chat" and with an empty history, is appended whatever the id, and the earlier chats are kept; its id becomes active, and under a fresh id it is the active chat |
| ChatState.Without | script.js:83 | exactly the chats with other ids remain |
| ChatState.DeleteChat | script.js:82-94 | the chat is removed; if it was active, the first remaining chat becomes active, or none |
| ChatState.ChatTitle | script.js:347 | at most 43 characters: the message if it has at most 40, else its first 40 followed by "..." |
| ChatState.AddMessageToState | script.js:343-353 | the entry is appended to the active chat only; the title becomes the message's title exactly for a first entry sent by the user, and is kept otherwise, a first "ai" entry included; with no active chat nothing changes |
| ChatState.TransitionsKeepActiveValid | script.js:329-353 | creating and adding a message (and deleting, script.js lines 82-94) keep the active id naming a chat |
| ChatState.AddMessageEndsHistory | script.js:345-348 | the added entry ends the active history; a first user message titles the chat, and any other message leaves the title unchanged |
| ChatState.DeleteUndoesCreate | script.js:82-94 | deleting a chat just made by createNewChat (script.js lines 329-341) restores the chat list and activates its first chat |
| Client.OptionFor | script.js:205-215 | an option carries the model's id and is disabled exactly when the model is unavailable |
| Client.PickerOrderIsPermutation | script.js:187-221 | grouping by provider only reorders the listed models |
| Client.FirstSelectable | script.js:229 | the first option with a value that is not disabled, or none exactly when there is no such option |
| Client.RestoreModel | script.js:223-233 | the saved model if it can still be chosen, otherwise the first option that can be |
| Client.RestorePicksAvailable | script.js:197-233 | the picker settles only on an available listed model, and does settle when one exists |
| Client.RestoreAgainstListing | script.js:180-233 | against the server's listing, a model is picked exactly when some key is set, and it is a model whose provider has a key |
| Client.Submit | script.js:394-457 | nothing happens exactly when the guard fails; an unlisted model is refused with the attachments kept and the chats unchanged, except that when no chat was active the new "Neuer Chat" stays appended and active; a sent request carries the trimmed text and the chosen model and clears the attachments |
| Client.SubmitSendsContextThenPrompt | script.js:417-447 | corrected: the request is the last ten earlier entries followed by the new message, and the chat ends with the new message |
| Client.SubmitAsWrittenRepeatsPrompt | script.js:417-447 | as written, the request ends with the new message twice |
| Client.FirstMessageSentTwice | script.js:403-447 | the first message of a fresh session is sent as two user turns as written, and as one when corrected |
| Client.BlankInputIgnored | script.js:396-400 | white space alone, with no attachments, is not sent |
| Client.FilesOnlySubmitIsRefused | script.js:400-457 | with attachments and no text, the request has an empty prompt and the server refuses it with 400 "Prompt is required" |
| Client.ClientRequestsCarryMessages | script.js:446-447 | the client always sends a message, so the server's fallback never applies |
| Client.ReplyText | script.js:460-478 | an answer is recorded as is; an error as "Fehler: " and the server's error text |
| Client.Receive | script.js:471-481 | the reply is added as an "ai" entry, loading ends, and the attachments are untouched |
| Client.ConversationRoundTrip | script.js:417-478 | after a submit and its reply, the chat ends with the question and then the answer |

## Left out

- Network, file system and process I/O are parameters or absent. This covers Express routing, multer storage, the provider SDKs and `fetch`, `localStorage`, and the DOM. Provider replies are `CallOutcome` values, API keys a set of providers, and `Date.now()` an argument.
- Uploaded file contents are not modelled. This covers `readFileContent`, image encoding, the file parts each provider call adds, and `fileIds` in `/api/chat`. The client never sends `fileIds`, so on this path the server's file list is always empty.
- The upload routes, `/api/health`, `/api/debug`, `formatFileSize`, markdown rendering, `copy-code.js`, chat-list rendering, the confirmation modal and `loadInitialState` are not modelled.
- The `puter` branch of `handleFormSubmit` (script.js:434-442) is not modelled. The server's listing never contains a `puter` model, so that branch is not reached.
- Relay.HandleChat: the `default` branch of the provider switch is not modelled for table entries. Every table entry has one of the six providers, so that branch is only reached through the inherited names of the first finding.
- Relay.PrepareCallShapes: `temperature: 0.7` of the Anthropic request is not modelled, because it is a floating-point constant.
- Relay.ClassifyFailure: the message is the one that reaches the handler. How each provider function rewraps its errors ("DeepSeek API error: …") belongs to that message, except for Anthropic's status mapping, which `Relay.AnthropicFailure` models.
- Relay.Validate: `prompt` and `model` are strings, and the empty string stands for every falsy value. Non-string JSON values are not modelled.
- Text.Lower: only ASCII letters are lowered. JavaScript's `toLowerCase` also lowers other letters, which matters for no extension in the table.
- ChatState.ChatTitle: lengths count characters, whereas JavaScript's `substring` counts UTF-16 code units.
- ChatState.AddMessageToState: `saveChats` and `renderChatList` are not modelled.
- Client.Receive: the reply goes to whichever chat is active when it arrives. Switching chats while a request is in flight is not modelled as a separate event.
- Client.RestoreModel: `None` means the picker's value is left as the browser set it. The browser's default choice is not modelled.
- Client.ProvidersOf: assumes provider names that are not integer-like (such as "0" or "42") and not `Object.prototype` members (such as "constructor" or "__proto__"). For integer-like names `Object.keys` lists them first in ascending order, and for inherited names `providers[model.provider].push` throws, so `Client.PickerOrder`, `Client.RestoreModel` and `Client.RestorePicksAvailable` describe the browser only for the other names. The server's listing only sends "gemini", "openrouter", "anthropic", "perplexity" and "deepseek", which are neither.
- Client.OptionFor: group labels, colours and the 🆓 marker are presentation and are not modelled.

## Findings

| source | as written | input that shows it | evidently intended | confidence | as-written member | corrected member |
|---|---|---|---|---|---|---|
| server/server.js:436-437 | `modelConfig[model]` also finds the members every object inherits, so the `!config` test passes for them and the provider switch falls to its default | model "constructor" (or "toString", "__proto__", …) gets 500 "Unknown provider: undefined" | every id outside the table gets 400 "Unsupported model" with the list of ids | not executed; high | Relay.HandleChatAsWritten, shown by Relay.ConstructorModelAsWritten | Relay.HandleChat, proved by Relay.UnknownModelIsRejected |
| script.js:417, 446-447 | `addMessageToState` appends the new message to the same chat object that `getChatHistory(activeChat, 10)` then reads, and `formatChatHistoryForProvider` appends the message again | the first message "Hallo" of a fresh session is sent as `[user "Hallo", user "Hallo"]` | the earlier history followed by the new message once | not executed; high | Client.SubmitAsWritten, shown by Client.SubmitAsWrittenRepeatsPrompt and Client.FirstMessageSentTwice | Client.Submit, proved by Client.SubmitSendsContextThenPrompt |

=== FILE: anthropic.dfy ===
/** The request the relay builds for Anthropic inside `callAnthropic`
    (server/server.js): the last turn becomes the user content, and every
    earlier turn is rendered into the system prompt as a labelled transcript. */
module AnthropicPrompt {
  import opened Text
  import opened Messages
  import opened Seqs

  const BasePrompt := "Du bist ein hilfreicher AI-Assistent."
  const HistoryHeading := "\n\nVorheriger Gesprächsverlauf:\n"
  const LineSeparator := "\n\n"
  const UserLabel := "Benutzer"
  const AssistantLabel := "Assistent"

  /** Only role "user" is labelled as the user; every other role, "system"
      included, is labelled as the assistant. */
  function Speaker(role: string): string {
    if role == UserRole then UserLabel else AssistantLabel
  }

  /** One transcript line, `Benutzer: …` or `Assistent: …`. */
  function TranscriptLine(m: Message): (line: string)
    ensures StartsWith(line, UserLabel + ": ") <==> m.role == UserRole
    ensures StartsWith(line, AssistantLabel + ": ") <==> m.role != UserRole
    ensures line[|Speaker(m.role)| + 2..] == m.content
  {
    var prefix := Speaker(m.role) + ": ";
    var line := prefix + m.content;
    assert line[..|prefix|] == prefix && line[0] == prefix[0];
    assert (UserLabel + ": ")[0] == 'B' && (AssistantLabel + ": ")[0] == 'A';
    line
  }

  function TranscriptLines(ms: seq<Message>): (lines: seq<string>)
    ensures |lines| == |ms|
    ensures forall i :: 0 <= i < |ms| ==> lines[i] == TranscriptLine(ms[i])
  {
    seq(|ms|, i requires 0 <= i < |ms| => TranscriptLine(ms[i]))
  }

  /** The earlier turns, one line each, separated by blank lines. */
  function Transcript(ms: seq<Message>): string {
    Join(TranscriptLines(ms), LineSeparator)
  }

  /** The `system` parameter sent to Anthropic: the fixed base prompt, and,
      when there is more than one turn, a heading and the transcript of every
      turn but the last. */
  function SystemPrompt(messages: seq<Message>): (r: string)
    ensures StartsWith(r, BasePrompt)
    ensures r == BasePrompt <==> |messages| <= 1
  {
    if |messages| > 1 then
      var r := BasePrompt + HistoryHeading + Transcript(messages[..|messages| - 1]);
      assert r[..|BasePrompt|] == BasePrompt;
      assert |r| > |BasePrompt|;
      r
    else BasePrompt
  }

  /** The text blocks of the user content: the last turn's content, unless
      there is no turn or its content is empty. */
  function UserText(messages: seq<Message>): (blocks: seq<string>)
    ensures |blocks| <= 1
    ensures |blocks| == 1 <==> |messages| > 0 && messages[|messages| - 1].content != ""
    ensures |blocks| == 1 ==> blocks[0] == messages[|messages| - 1].content
  {
    if |messages| > 0 && messages[|messages| - 1].content != "" then [messages[|messages| - 1].content]
    else []
  }

  /** The last turn never reaches the system prompt: replacing it changes nothing. */
  lemma SystemPromptIgnoresLast(messages: seq<Message>, m: Message)
    requires |messages| > 0
    ensures SystemPrompt(messages[..|messages| - 1] + [m]) == SystemPrompt(messages)
  {
    var n := |messages|;
    var ms := messages[..n - 1] + [m];
    assert ms[..n - 1] == messages[..n - 1];
  }

  /** With two turns, the base prompt is followed by the heading and the line
      of the first turn. */
  lemma SystemPromptTwoTurns(a: Message, b: Message)
    ensures SystemPrompt([a, b]) == BasePrompt + HistoryHeading + TranscriptLine(a)
  {
    assert [a, b][..1] == [a];
  }

  /** One more turn at the end adds exactly one transcript line: the line of
      the turn that used to be last. */
  lemma SystemPromptGrows(messages: seq<Message>, m: Message)
    requires |messages| >= 2
    ensures SystemPrompt(messages + [m])
         == SystemPrompt(messages) + LineSeparator + TranscriptLine(messages[|messages| - 1])
  {
    var n := |messages|;
    var before := messages[..n - 1];
    assert (messages + [m])[..n] == before + [messages[n - 1]];
    assert TranscriptLines(before + [messages[n - 1]]) == TranscriptLines(before) + [TranscriptLine(messages[n - 1])];
    JoinAppend(TranscriptLines(before), TranscriptLine(messages[n - 1]), LineSeparator);
    var t := Transcript(before);
    var l := TranscriptLine(messages[n - 1]);
    AppendAssoc(BasePrompt + HistoryHeading, t + LineSeparator, l);
    AppendAssoc(BasePrompt + HistoryHeading, t, LineSeparator);
  }

  /** Every part of a join occurs in it. */
  lemma {:induction false} JoinContainsPart(parts: seq<string>, sep: string, i: nat)
    requires i < |parts|
    ensures Contains(Join(parts, sep), parts[i])
    decreases |parts|
  {
    if i == 0 {
      JoinStartsWithFirst(parts, sep);
      StartsWithContains(Join(parts, sep), parts[0]);
    } else {
      JoinContainsPart(parts[1..], sep, i - 1);
      ContainsAfter(parts[0] + sep, Join(parts[1..], sep), parts[i]);
    }
  }

  /** Every turn before the last appears in the system prompt as its labelled line. */
  lemma SystemPromptMentionsEarlierTurns(messages: seq<Message>, i: nat)
    requires i < |messages| - 1
    ensures Contains(SystemPrompt(messages), TranscriptLine(messages[i]))
  {
    var before := messages[..|messages| - 1];
    JoinContainsPart(TranscriptLines(before), LineSeparator, i);
    ContainsAfter(BasePrompt + HistoryHeading, Transcript(before), TranscriptLine(messages[i]));
  }
}

=== FILE: chats.dfy ===
/** The client's chat list (script.js): the chats kept in the browser, the
    active chat, and the transitions `createNewChat`, `deleteChat` and
    `addMessageToState`, together with the history window that
    `getChatHistory` and `formatChatHistoryForProvider` turn into request
    messages. */
module ChatState {
  import opened Wrappers
  import opened Messages

  /** Who wrote an entry: the client stores "user" or "ai". */
  datatype Sender = UserSender | AiSender

  datatype ChatEntry = ChatEntry(sender: Sender, message: string)

  datatype Chat = Chat(id: string, title: string, history: seq<ChatEntry>)

  /** `chats` and `activeChatId`; `None` is `null`. */
  datatype State = State(chats: seq<Chat>, activeChatId: Option<string>)

  const NewChatTitle := "Neuer Chat"
  const TitleLength := 40
  const Ellipsis := "..."

  predicate HasId(chats: seq<Chat>, id: string) {
    exists i :: 0 <= i < |chats| && chats[i].id == id
  }

  /** The index of the first chat with `id` (`chats.find`). */
  function FindIndex(chats: seq<Chat>, id: string): (r: Option<nat>)
    ensures r.Some? ==>
      && r.value < |chats| && chats[r.value].id == id
      && forall j :: 0 <= j < r.value ==> chats[j].id != id
    ensures r.None? <==> !HasId(chats, id)
    decreases |chats|
  {
    if |chats| == 0 then None
    else if chats[0].id == id then Some(0)
    else match FindIndex(chats[1..], id)
      case None =>
        assert forall j :: 1 <= j < |chats| ==> chats[j] == chats[1..][j - 1];
        None
      case Some(k) => Some(k + 1)
  }

  /** The chat the client shows and writes to, if the active id names one. */
  function ActiveIndex(s: State): Option<nat> {
    match s.activeChatId
    case None => None
    case Some(id) => FindIndex(s.chats, id)
  }

  function ActiveChat(s: State): Option<Chat> {
    match ActiveIndex(s)
    case None => None
    case Some(i) => Some(s.chats[i])
  }

  /** The invariant the transitions keep: an active id always names a chat. */
  predicate ActiveValid(s: State) {
    s.activeChatId.Some? ==> HasId(s.chats, s.activeChatId.value)
  }

  // ---------------------------------------------------------------------------
  // History for requests

  /** An entry as a request message: "user" stays, everything else becomes "assistant". */
  function AsMessage(e: ChatEntry): (m: Message)
    ensures m.content == e.message
    ensures m.role == UserRole <==> e.sender == UserSender
    ensures m.role == UserRole || m.role == AssistantRole
  {
    Message(if e.sender == UserSender then UserRole else AssistantRole, e.message)
  }

  /** `history.slice(-maxMessages)`: `-0` is `0`, so a limit of 0 keeps everything. */
  function Window(history: seq<ChatEntry>, maxMessages: nat): (r: seq<ChatEntry>)
    ensures maxMessages == 0 || maxMessages >= |history| ==> r == history
    ensures 0 < maxMessages < |history| ==> |r| == maxMessages
    ensures r == history[|history| - |r|..]
  {
    if maxMessages == 0 || maxMessages >= |history| then history
    else history[|history| - maxMessages..]
  }

  /** `getChatHistory(activeChat, maxMessages)`: the last entries of the chat
      as request messages, none without a chat. */
  function GetChatHistory(chat: Option<Chat>, maxMessages: nat): (r: seq<Message>)
    ensures chat.None? ==> r == []
    ensures chat.Some? ==>
      var h := chat.value.history;
      && |r| <= |h|
      && (maxMessages > 0 ==> |r| <= maxMessages)
      && forall i :: 0 <= i < |r| ==> r[i] == AsMessage(h[|h| - |r| + i])
  {
    match chat
    case None => []
    case Some(c) =>
      var w := Window(c.history, maxMessages);
      seq(|w|, i requires 0 <= i < |w| => AsMessage(w[i]))
  }

  /** Each history window is as long as the limit allows: the whole history if
      it fits, otherwise exactly `maxMessages` entries. */
  lemma GetChatHistoryLength(c: Chat, maxMessages: nat)
    ensures |GetChatHistory(Some(c), maxMessages)|
         == if maxMessages == 0 || maxMessages >= |c.history| then |c.history| else maxMessages
  {
  }

  /** Appending an entry slides the window by one: the new entry is last and
      the oldest entry drops out once the window is full. */
  lemma WindowSlides(c: Chat, e: ChatEntry, maxMessages: nat)
    requires maxMessages > 0
    ensures var before := GetChatHistory(Some(c), maxMessages);
      var after := GetChatHistory(Some(c.(history := c.history + [e])), maxMessages);
      after == (if |before| == maxMessages then before[1..] else before) + [AsMessage(e)]
  {
    var before := GetChatHistory(Some(c), maxMessages);
    var h' := c.history + [e];
    var after := GetChatHistory(Some(c.(history := h')), maxMessages);
    var expected := (if |before| == maxMessages then before[1..] else before) + [AsMessage(e)];
    GetChatHistoryLength(c, maxMessages);
    GetChatHistoryLength(c.(history := h'), maxMessages);
    assert |after| == |expected|;
    forall i | 0 <= i < |after|
      ensures after[i] == expected[i]
    {
      if i < |after| - 1 {
        assert h'[|h'| - |after| + i] == c.history[|c.history| - |after| + i + 1];
      }
    }
  }

  /** `formatChatHistoryForProvider(history, currentMessage)`: the history
      followed by the current message as a user turn. */
  function FormatChatHistoryForProvider(history: seq<Message>, currentMessage: string): (r: seq<Message>)
    ensures |r| == |history| + 1
    ensures r[..|history|] == history
    ensures r[|history|] == UserTurn(currentMessage)
  {
    history + [UserTurn(currentMessage)]
  }

  // ---------------------------------------------------------------------------
  // Transitions

  /** `createNewChat()` with `Date.now().toString()` given as `newId`: a new,
      empty chat is appended and becomes active. */
  function CreateNewChat(s: State, newId: string): (r: State)
    ensures |r.chats| == |s.chats| + 1 && r.chats[..|s.chats|] == s.chats
    ensures r.chats[|s.chats|] == Chat(newId, NewChatTitle, [])
    ensures r.activeChatId == Some(newId)
    ensures ActiveValid(r)
    ensures !HasId(s.chats, newId) ==> ActiveChat(r) == Some(Chat(newId, NewChatTitle, []))
  {
    var r := State(s.chats + [Chat(newId, NewChatTitle, [])], Some(newId));
    assert r.chats[|s.chats|].id == newId;
    assert !HasId(s.chats, newId) ==> forall j :: 0 <= j < |s.chats| ==> r.chats[j].id != newId;
    r
  }

  /** The chats without those whose id is `id` (`chats.filter`). */
  function Without(chats: seq<Chat>, id: string): (r: seq<Chat>)
    ensures !HasId(r, id)
    ensures |r| <= |chats|
    ensures forall c :: c in r <==> c in chats && c.id != id
    decreases |chats|
  {
    if |chats| == 0 then []
    else
      var rest := Without(chats[1..], id);
      if chats[0].id == id then rest
      else
        assert forall c :: c in [chats[0]] + rest <==> c == chats[0] || c in rest;
        [chats[0]] + rest
  }

  /** `deleteChat(id)`: the chat is removed; if it was active, the first
      remaining chat becomes active, or none when no chat is left. */
  function DeleteChat(s: State, id: string): (r: State)
    ensures r.chats == Without(s.chats, id)
    ensures s.activeChatId != Some(id) ==> r.activeChatId == s.activeChatId
    ensures s.activeChatId == Some(id) ==>
      (r.activeChatId.None? <==> |r.chats| == 0)
      && (r.activeChatId.Some? ==> r.activeChatId.value == r.chats[0].id)
  {
    var rest := Without(s.chats, id);
    if s.activeChatId == Some(id) then
      State(rest, if |rest| > 0 then Some(rest[0].id) else None)
    else
      State(rest, s.activeChatId)
  }

  /** The title of a chat whose first entry is a user message: its first 40
      characters, followed by "..." when it was longer. */
  function ChatTitle(message: string): (t: string)
    ensures |t| <= TitleLength + |Ellipsis|
    ensures |message| <= TitleLength ==> t == message
    ensures |message| > TitleLength ==>
      |t| == TitleLength + |Ellipsis| && t[..TitleLength] == message[..TitleLength] && t[TitleLength..] == Ellipsis
  {
    if |message| > TitleLength then message[..TitleLength] + Ellipsis else message
  }

  /** `addMessageToState(message, sender)`: the entry is appended to the active
      chat, and a first user entry gives the chat its title; with no active
      chat nothing changes. */
  function AddMessageToState(s: State, message: string, sender: Sender): (r: State)
    ensures r.activeChatId == s.activeChatId
    ensures |r.chats| == |s.chats|
    ensures ActiveIndex(s).None? ==> r == s
    ensures ActiveIndex(s).Some? ==>
      var i := ActiveIndex(s).value;
      && r.chats[i].id == s.chats[i].id
      && r.chats[i].history == s.chats[i].history + [ChatEntry(sender, message)]
      && r.chats[i].title
           == (if s.chats[i].history == [] && sender == UserSender then ChatTitle(message) else s.chats[i].title)
      && (forall j :: 0 <= j < |s.chats| && j != i ==> r.chats[j] == s.chats[j])
  {
    match ActiveIndex(s)
    case None => s
    case Some(i) =>
      var c := s.chats[i];
      var history := c.history + [ChatEntry(sender, message)];
      var title := if |history| == 1 && sender == UserSender then ChatTitle(message) else c.title;
      State(s.chats[i := Chat(c.id, title, history)], s.activeChatId)
  }

  // ---------------------------------------------------------------------------
  // Properties of the transitions

  /** The chat ids are the same before and after a message is added. */
  lemma AddMessageKeepsIds(s: State, message: string, sender: Sender, id: string)
    ensures HasId(AddMessageToState(s, message, sender).chats, id) <==> HasId(s.chats, id)
  {
    var r := AddMessageToState(s, message, sender);
    if ActiveIndex(s).Some? {
      var i := ActiveIndex(s).value;
      assert forall j :: 0 <= j < |s.chats| ==> r.chats[j].id == s.chats[j].id;
    }
  }

  /** Every transition keeps the active id pointing at a chat. */
  lemma TransitionsKeepActiveValid(s: State, newId: string, id: string, message: string, sender: Sender)
    requires ActiveValid(s)
    ensures ActiveValid(CreateNewChat(s, newId))
    ensures ActiveValid(DeleteChat(s, id))
    ensures ActiveValid(AddMessageToState(s, message, sender))
  {
    var d := DeleteChat(s, id);
    if d.activeChatId.Some? {
      if s.activeChatId == Some(id) {
        assert d.chats[0].id == d.activeChatId.value;
      } else {
        var a := s.activeChatId.value;
        var k :| 0 <= k < |s.chats| && s.chats[k].id == a;
        assert s.chats[k] in d.chats;
        var m :| 0 <= m < |d.chats| && d.chats[m] == s.chats[k];
      }
    }
    if s.activeChatId.Some? {
      AddMessageKeepsIds(s, message, sender, s.activeChatId.value);
    }
  }

  /** The message added to the active chat is the last entry of its history;
      a first user message names the chat, and any other message, a first
      "ai" entry included, leaves the title as it was. */
  lemma AddMessageEndsHistory(s: State, message: string, sender: Sender)
    requires ActiveValid(s) && s.activeChatId.Some?
    ensures var r := AddMessageToState(s, message, sender);
      && ActiveChat(r).Some?
      && ActiveChat(s).Some?
      && ActiveChat(r).value.history == ActiveChat(s).value.history + [ChatEntry(sender, message)]
      && (ActiveChat(s).value.history == [] && sender == UserSender ==> ActiveChat(r).value.title == ChatTitle(message))
      && (ActiveChat(s).value.history != [] || sender != UserSender ==>
            ActiveChat(r).value.title == ActiveChat(s).value.title)
  {
    var r := AddMessageToState(s, message, sender);
    var i := ActiveIndex(s).value;
    var id := s.activeChatId.value;
    assert FindIndex(r.chats, id) == Some(i) by {
      assert r.chats[i].id == id;
      assert forall j :: 0 <= j < i ==> r.chats[j] == s.chats[j];
    }
  }

  /** Deleting a chat just created, under a fresh id, gives back the chats
      before it; the first of them becomes active. */
  lemma DeleteUndoesCreate(s: State, newId: string)
    requires !HasId(s.chats, newId)
    ensures var r := DeleteChat(CreateNewChat(s, newId), newId);
      && r.chats == s.chats
      && (r.activeChatId.None? <==> |s.chats| == 0)
      && (|s.chats| > 0 ==> r.activeChatId == Some(s.chats[0].id))
  {
    WithoutAbsent(s.chats, newId);
    WithoutAppend(s.chats, [Chat(newId, NewChatTitle, [])], newId);
    assert Without([Chat(newId, NewChatTitle, [])], newId) == [];
  }

  /** Removing an id that no chat has changes nothing. */
  lemma {:induction false} WithoutAbsent(chats: seq<Chat>, id: string)
    requires !HasId(chats, id)
    ensures Without(chats, id) == chats
    decreases |chats|
  {
    if |chats| > 0 {
      assert !HasId(chats[1..], id) by {
        forall k | 0 <= k < |chats| - 1
          ensures chats[1..][k].id != id
        {
          assert chats[1..][k] == chats[k + 1];
        }
      }
      WithoutAbsent(chats[1..], id);
      assert [chats[0]] + chats[1..] == chats;
    }
  }

  /** Removal distributes over concatenation. */
  lemma {:induction false} WithoutAppend(a: seq<Chat>, b: seq<Chat>, id: string)
    ensures Without(a + b, id) == Without(a, id) + Without(b, id)
    decreases |a|
  {
    if |a| == 0 {
      assert a + b == b;
    } else {
      assert (a + b)[0] == a[0];
      assert (a + b)[1..] == a[1..] + b;
      WithoutAppend(a[1..], b, id);
    }
  }
}

=== FILE: client.dfy ===
/** The client's side of a conversation (script.js): the model picker filled
    by `loadAvailableModels`, the submit guard and request of
    `handleFormSubmit`, and how the reply or error is recorded. */
module Client {
  import opened Wrappers
  import opened Text
  import opened Messages
  import opened ChatState
  import opened FileSelection
  import Relay

  // ---------------------------------------------------------------------------
  // The model picker

  /** An `<option>` of the model picker. */
  datatype ModelOption = ModelOption(value: string, text: string, disabled: bool, provider: string)

  const KeyRequiredSuffix := " (API-Schlüssel erforderlich)"

  /** The option for one listed model: disabled, and marked so, when its
      provider has no key. */
  function OptionFor(m: Relay.ModelInfo): (o: ModelOption)
    ensures o.value == m.id && o.provider == m.provider
    ensures o.disabled <==> !m.available
  {
    ModelOption(m.id, m.name + (if m.available then "" else KeyRequiredSuffix), !m.available, m.provider)
  }

  /** The providers of a listing in order of first appearance, which is the
      key order of the `providers` object for provider names that are neither
      integer-like nor members of `Object.prototype`. */
  function ProvidersOf(models: seq<Relay.ModelInfo>): (ps: seq<string>)
    ensures Distinct(ps)
    ensures forall p :: p in ps <==> exists k :: 0 <= k < |models| && models[k].provider == p
    decreases |models|
  {
    if |models| == 0 then []
    else
      var init := models[..|models| - 1];
      var ps := ProvidersOf(init);
      var last := models[|models| - 1];
      assert forall k :: 0 <= k < |init| ==> init[k] == models[k];
      if last.provider in ps then ps else ps + [last.provider]
  }

  /** The models of one provider, in listing order. */
  function GroupOf(models: seq<Relay.ModelInfo>, provider: string): (g: seq<Relay.ModelInfo>)
    ensures forall m :: m in g ==> m.provider == provider
    decreases |models|
  {
    if |models| == 0 then []
    else
      var init := GroupOf(models[..|models| - 1], provider);
      var last := models[|models| - 1];
      if last.provider == provider then init + [last] else init
  }

  /** The groups of `providers`, one after the other. */
  function Grouped(providers: seq<string>, models: seq<Relay.ModelInfo>): seq<Relay.ModelInfo>
    decreases |providers|
  {
    if |providers| == 0 then [] else GroupOf(models, providers[0]) + Grouped(providers[1..], models)
  }

  /** The models in picker order: grouped by provider, groups in order of first
      appearance, models in listing order within a group. */
  function PickerOrder(models: seq<Relay.ModelInfo>): seq<Relay.ModelInfo> {
    Grouped(ProvidersOf(models), models)
  }

  /** The picker's options. */
  function Options(models: seq<Relay.ModelInfo>): (r: seq<ModelOption>)
    ensures |r| == |PickerOrder(models)|
    ensures forall i :: 0 <= i < |r| ==> r[i] == OptionFor(PickerOrder(models)[i])
  {
    var order := PickerOrder(models);
    seq(|order|, i requires 0 <= i < |order| => OptionFor(order[i]))
  }

  lemma {:induction false} GroupOfAppend(models: seq<Relay.ModelInfo>, m: Relay.ModelInfo, provider: string)
    ensures GroupOf(models + [m], provider) == GroupOf(models, provider) + (if m.provider == provider then [m] else [])
  {
    assert (models + [m])[..|models|] == models;
  }

  lemma {:induction false} GroupOfNone(models: seq<Relay.ModelInfo>, provider: string)
    requires forall k :: 0 <= k < |models| ==> models[k].provider != provider
    ensures GroupOf(models, provider) == []
    decreases |models|
  {
    if |models| > 0 {
      var init := models[..|models| - 1];
      assert forall k :: 0 <= k < |init| ==> init[k] == models[k];
      GroupOfNone(init, provider);
    }
  }

  lemma {:induction false} GroupedAppendProvider(providers: seq<string>, p: string, models: seq<Relay.ModelInfo>)
    ensures Grouped(providers + [p], models) == Grouped(providers, models) + GroupOf(models, p)
    decreases |providers|
  {
    if |providers| == 0 {
      assert Grouped([p], models) == GroupOf(models, p) + Grouped([], models);
    } else {
      assert (providers + [p])[1..] == providers[1..] + [p];
      GroupedAppendProvider(providers[1..], p, models);
    }
  }

  predicate Distinct(ps: seq<string>) {
    forall i, j :: 0 <= i < j < |ps| ==> ps[i] != ps[j]
  }

  lemma DistinctTail(ps: seq<string>)
    requires |ps| > 0 && Distinct(ps)
    ensures Distinct(ps[1..]) && ps[0] !in ps[1..]
  {
    var rest := ps[1..];
    forall i, j | 0 <= i < j < |rest|
      ensures rest[i] != rest[j]
    {
      assert rest[i] == ps[i + 1] && rest[j] == ps[j + 1];
    }
    forall j | 0 <= j < |rest|
      ensures rest[j] != ps[0]
    {
      assert rest[j] == ps[j + 1];
    }
  }

  /** Adding a model to the listing adds it once to the groups, when its
      provider is among them. */
  lemma {:induction false} GroupedAppendModel(providers: seq<string>, models: seq<Relay.ModelInfo>, m: Relay.ModelInfo)
    requires Distinct(providers)
    ensures multiset(Grouped(providers, models + [m]))
         == multiset(Grouped(providers, models)) + (if m.provider in providers then multiset{m} else multiset{})
    decreases |providers|
  {
    if |providers| > 0 {
      var p := providers[0];
      var rest := providers[1..];
      DistinctTail(providers);
      GroupedAppendModel(rest, models, m);
      GroupOfAppend(models, m, p);
      var g, g' := GroupOf(models, p), GroupOf(models + [m], p);
      var t, t' := Grouped(rest, models), Grouped(rest, models + [m]);
      assert Grouped(providers, models + [m]) == g' + t';
      assert Grouped(providers, models) == g + t;
      assert m.provider in providers <==> m.provider == p || m.provider in rest;
    }
  }

  /** A model of a provider already listed joins that provider's group. */
  lemma PickerKnownProvider(init: seq<Relay.ModelInfo>, m: Relay.ModelInfo)
    requires m.provider in ProvidersOf(init)
    ensures multiset(PickerOrder(init + [m])) == multiset(PickerOrder(init)) + multiset{m}
  {
    var models := init + [m];
    assert models[..|models| - 1] == init;
    assert ProvidersOf(models) == ProvidersOf(init);
    GroupedAppendModel(ProvidersOf(init), init, m);
  }

  /** A model of a new provider opens a group of its own, at the end. */
  lemma PickerNewProvider(init: seq<Relay.ModelInfo>, m: Relay.ModelInfo)
    requires m.provider !in ProvidersOf(init)
    ensures multiset(PickerOrder(init + [m])) == multiset(PickerOrder(init)) + multiset{m}
  {
    var models := init + [m];
    var ps := ProvidersOf(init);
    assert models[..|models| - 1] == init;
    assert ProvidersOf(models) == ps + [m.provider];
    GroupedAppendProvider(ps, m.provider, models);
    NoGroupYet(init, m.provider);
    GroupOfAppend(init, m, m.provider);
    assert PickerOrder(models) == Grouped(ps, models) + [m];
    GroupedAppendModel(ps, init, m);
  }

  /** A provider that `ProvidersOf` does not list has no models. */
  lemma NoGroupYet(init: seq<Relay.ModelInfo>, p: string)
    requires p !in ProvidersOf(init)
    ensures GroupOf(init, p) == []
  {
    forall k | 0 <= k < |init|
      ensures init[k].provider != p
    {
      assert init[k].provider in ProvidersOf(init);
    }
    GroupOfNone(init, p);
  }

  /** The picker shows every listed model exactly as often as the listing
      holds it: grouping only reorders. */
  lemma {:induction false} PickerOrderIsPermutation(models: seq<Relay.ModelInfo>)
    ensures multiset(PickerOrder(models)) == multiset(models)
    decreases |models|
  {
    if |models| > 0 {
      var init := models[..|models| - 1];
      var m := models[|models| - 1];
      assert models == init + [m];
      PickerOrderIsPermutation(init);
      if m.provider in ProvidersOf(init) {
        PickerKnownProvider(init, m);
      } else {
        PickerNewProvider(init, m);
      }
    }
  }

  /** An option that can be chosen: it has a value and is not disabled. */
  predicate Selectable(options: seq<ModelOption>, value: string) {
    value != "" && exists i :: 0 <= i < |options| && options[i].value == value && !options[i].disabled
  }

  /** The first option that can be chosen. */
  function FirstSelectable(options: seq<ModelOption>): (r: Option<string>)
    ensures r.Some? ==> Selectable(options, r.value)
    ensures r.None? <==> forall i :: 0 <= i < |options| ==> options[i].value == "" || options[i].disabled
    ensures r.Some? ==> exists i :: (0 <= i < |options| && options[i].value == r.value && !options[i].disabled
      && forall j :: 0 <= j < i ==> options[j].value == "" || options[j].disabled)
    decreases |options|
  {
    if |options| == 0 then None
    else if options[0].value != "" && !options[0].disabled then Some(options[0].value)
    else
      var r := FirstSelectable(options[1..]);
      assert forall i :: 1 <= i < |options| ==> options[i] == options[1..][i - 1];
      if r.Some? then
        FirstAfterSkipped(options, r.value);
        r
      else r
  }

  /** A first choice among `options[1..]` is a first choice among `options`
      when the first option cannot be chosen. */
  lemma FirstAfterSkipped(options: seq<ModelOption>, v: string)
    requires |options| > 0 && (options[0].value == "" || options[0].disabled)
    requires exists k :: (0 <= k < |options| - 1 && options[1..][k].value == v && !options[1..][k].disabled
      && forall j :: 0 <= j < k ==> options[1..][j].value == "" || options[1..][j].disabled)
    ensures exists i :: (0 <= i < |options| && options[i].value == v && !options[i].disabled
      && forall j :: 0 <= j < i ==> options[j].value == "" || options[j].disabled)
  {
    var k :| (0 <= k < |options| - 1 && options[1..][k].value == v && !options[1..][k].disabled
      && forall j :: 0 <= j < k ==> options[1..][j].value == "" || options[1..][j].disabled);
    assert options[k + 1] == options[1..][k];
    assert forall j :: 1 <= j < k + 1 ==> options[j] == options[1..][j - 1];
  }

  /** The picker's value after loading: the saved model if it can still be
      chosen, else the first option that can; `None` leaves the picker as
      the browser set it. An empty `saved` stands for no saved model. */
  function RestoreModel(options: seq<ModelOption>, saved: string): (r: Option<string>)
    ensures Selectable(options, saved) ==> r == Some(saved)
    ensures !Selectable(options, saved) ==> r == FirstSelectable(options)
    ensures r.Some? ==> Selectable(options, r.value)
    ensures r.None? <==> forall i :: 0 <= i < |options| ==> options[i].value == "" || options[i].disabled
  {
    if Selectable(options, saved) then Some(saved) else FirstSelectable(options)
  }

  /** The picker settles on a model exactly when the listing has an available
      model with an id, and only ever on such a model. */
  lemma RestorePicksAvailable(models: seq<Relay.ModelInfo>, saved: string)
    ensures var r := RestoreModel(Options(models), saved);
      && (r.Some? ==> exists k :: 0 <= k < |models| && models[k].id == r.value && models[k].available)
      && ((exists k :: 0 <= k < |models| && models[k].id != "" && models[k].available) ==> r.Some?)
  {
    var order := PickerOrder(models);
    var options := Options(models);
    var r := RestoreModel(options, saved);
    PickerOrderIsPermutation(models);
    if r.Some? {
      var i :| 0 <= i < |options| && options[i].value == r.value && !options[i].disabled;
      assert order[i] in multiset(models);
      var k :| 0 <= k < |models| && models[k] == order[i];
    }
    if exists k :: 0 <= k < |models| && models[k].id != "" && models[k].available {
      var k :| 0 <= k < |models| && models[k].id != "" && models[k].available;
      assert models[k] in multiset(order);
      var i :| 0 <= i < |order| && order[i] == models[k];
      assert options[i].value != "" && !options[i].disabled;
    }
  }

  /** Against the server's listing, the picker settles on a model exactly when
      some provider has a key, and the model it settles on is one whose
      provider has a key. */
  lemma RestoreAgainstListing(keys: set<Relay.Provider>, saved: string)
    ensures var r := RestoreModel(Options(Relay.ModelsListing(keys)), saved);
      && (r.Some? <==> keys != {})
      && (r.Some? ==> exists i :: 0 <= i < |Relay.ModelTable| && Relay.ModelTable[i].0 == r.value
                                  && Relay.ModelTable[i].1.provider in keys)
  {
    var listing := Relay.ModelsListing(keys);
    RestorePicksAvailable(listing, saved);
    Relay.ModelIdsNonEmpty();
    if keys != {} {
      var p :| p in keys;
      var k := EntryOf(p);
      assert listing[k].id != "" && listing[k].available;
    }
  }

  /** Every provider has a model in the table. */
  function EntryOf(p: Relay.Provider): (k: nat)
    ensures k < |Relay.ModelTable| && Relay.ModelTable[k].1.provider == p
  {
    match p
    case Gemini => 0
    case OpenRouter => 2
    case Anthropic => 4
    case Perplexity => 5
    case DeepSeek => 7
    case OpenAI => 10
  }

  // ---------------------------------------------------------------------------
  // Submitting

  /** What the client holds besides the picker. */
  datatype Session = Session(state: State, selectedFiles: seq<SelectedFile>, isLoading: bool)

  /** The guard of `handleFormSubmit`: something to send, a chosen model, and
      no request in flight. */
  predicate CanSubmit(userMessage: string, fileCount: nat, selectedModel: string, isLoading: bool) {
    (userMessage != "" || fileCount > 0) && selectedModel != "" && !isLoading
  }

  /** How many earlier entries the client sends along. */
  const ContextSize := 10

  /** The result of a submit: nothing happens, the model is refused, or a
      request is sent. */
  datatype Submission =
    | Ignored
    | ModelRefused(session: Session)
    | Sent(session: Session, request: Relay.ChatRequest)

  /** The state after the guard passed: a chat is created when none is active. */
  function EnsureActive(s: State, newId: string): (r: State)
    ensures ActiveChat(r).Some?
    ensures ActiveChat(s).Some? ==> r == s
  {
    if ActiveChat(s).Some? then s
    else
      var r := CreateNewChat(s, newId);
      assert r.chats[|s.chats|].id == newId;
      r
  }

  function Listed(available: seq<Relay.ModelInfo>, id: string): bool {
    exists i :: 0 <= i < |available| && available[i].id == id
  }

  /** `handleFormSubmit`. `newId` stands for `Date.now().toString()`, used only
      when a chat has to be created; `available` is the listing the client
      loaded. The context is the window of the active chat BEFORE the new
      message is added, followed by the new message. */
  function Submit(session: Session, input: string, selectedModel: string,
                  available: seq<Relay.ModelInfo>, newId: string): (r: Submission)
    ensures r.Ignored? <==> !CanSubmit(Trim(input), |session.selectedFiles|, selectedModel, session.isLoading)
    ensures r.ModelRefused? ==>
      && !Listed(available, selectedModel) && !r.session.isLoading
      && r.session.selectedFiles == session.selectedFiles
    ensures r.ModelRefused? && ActiveChat(session.state).Some? ==> r.session.state == session.state
    ensures r.ModelRefused? && ActiveChat(session.state).None? ==>
      && r.session.state.chats == session.state.chats + [Chat(newId, NewChatTitle, [])]
      && r.session.state.activeChatId == Some(newId)
    ensures r.Sent? ==>
      && Listed(available, selectedModel)
      && r.session.isLoading && r.session.selectedFiles == []
      && r.request.prompt == Trim(input) && r.request.model == selectedModel
  {
    var userMessage := Trim(input);
    if !CanSubmit(userMessage, |session.selectedFiles|, selectedModel, session.isLoading) then Ignored
    else
      var s1 := EnsureActive(session.state, newId);
      if !Listed(available, selectedModel) then ModelRefused(Session(s1, session.selectedFiles, false))
      else
        var s2 := AddMessageToState(s1, userMessage, UserSender);
        var history := GetChatHistory(ActiveChat(s1), ContextSize);
        Sent(Session(s2, [], true),
             Relay.ChatRequest(userMessage, selectedModel, FormatChatHistoryForProvider(history, userMessage)))
  }

  /** The request as the source builds it: the history is read from the chat
      object after `addMessageToState` has already appended the new message. */
  function SubmitAsWritten(session: Session, input: string, selectedModel: string,
                           available: seq<Relay.ModelInfo>, newId: string): Submission {
    var userMessage := Trim(input);
    if !CanSubmit(userMessage, |session.selectedFiles|, selectedModel, session.isLoading) then Ignored
    else
      var s1 := EnsureActive(session.state, newId);
      if !Listed(available, selectedModel) then ModelRefused(Session(s1, session.selectedFiles, false))
      else
        var s2 := AddMessageToState(s1, userMessage, UserSender);
        var history := GetChatHistory(ActiveChat(s2), ContextSize);
        Sent(Session(s2, [], true),
             Relay.ChatRequest(userMessage, selectedModel, FormatChatHistoryForProvider(history, userMessage)))
  }

  /** After a chat was ensured, adding a message keeps it active and extends its history by that message. */
  lemma ActiveAfterAdd(s1: State, message: string)
    requires ActiveChat(s1).Some?
    ensures var s2 := AddMessageToState(s1, message, UserSender);
      && ActiveChat(s2).Some?
      && ActiveChat(s2).value == ActiveChat(s1).value.(history := ActiveChat(s1).value.history + [ChatEntry(UserSender, message)],
                                                      title := ActiveChat(s2).value.title)
  {
    var i := ActiveIndex(s1).value;
    var id := s1.activeChatId.value;
    assert ActiveValid(s1) by {
      assert s1.chats[i].id == id;
    }
    AddMessageEndsHistory(s1, message, UserSender);
    var s2 := AddMessageToState(s1, message, UserSender);
    assert FindIndex(s2.chats, id) == Some(i) by {
      assert forall j :: 0 <= j < i ==> s2.chats[j] == s1.chats[j];
      assert s2.chats[i].id == id;
    }
  }

  /** The sent request carries the window of the history before the new
      message, then the new message as the only trailing user turn. */
  lemma SubmitSendsContextThenPrompt(session: Session, input: string, selectedModel: string,
                                     available: seq<Relay.ModelInfo>, newId: string)
    ensures var r := Submit(session, input, selectedModel, available, newId);
      r.Sent? ==>
        var before := EnsureActive(session.state, newId);
        var h := ActiveChat(before).value.history;
        var ms := r.request.messages;
        && |ms| == (if |h| < ContextSize then |h| else ContextSize) + 1
        && ms[|ms| - 1] == UserTurn(Trim(input))
        && (forall i :: 0 <= i < |ms| - 1 ==> ms[i] == AsMessage(h[|h| - (|ms| - 1) + i]))
        && ActiveChat(r.session.state).Some?
        && ActiveChat(r.session.state).value.history == h + [ChatEntry(UserSender, Trim(input))]
  {
    var r := Submit(session, input, selectedModel, available, newId);
    if r.Sent? {
      var before := EnsureActive(session.state, newId);
      GetChatHistoryLength(ActiveChat(before).value, ContextSize);
      ActiveAfterAdd(before, Trim(input));
    }
  }

  /** As written, the new message is sent twice: the window already ends with
      it and formatting appends it again. The corrected request is the written
      one with the duplicate removed and, when the window was full, its
      oldest entry restored. */
  lemma SubmitAsWrittenRepeatsPrompt(session: Session, input: string, selectedModel: string,
                                     available: seq<Relay.ModelInfo>, newId: string)
    ensures var w := SubmitAsWritten(session, input, selectedModel, available, newId);
      var r := Submit(session, input, selectedModel, available, newId);
      && (w.Sent? <==> r.Sent?)
      && (w.Sent? ==>
        var ms := w.request.messages;
        var before := r.request.messages[..|r.request.messages| - 1];
        && |ms| >= 2
        && ms[|ms| - 1] == UserTurn(Trim(input)) && ms[|ms| - 2] == UserTurn(Trim(input))
        && ms == (if |before| == ContextSize then before[1..] else before) + [UserTurn(Trim(input)), UserTurn(Trim(input))])
  {
    var w := SubmitAsWritten(session, input, selectedModel, available, newId);
    var r := Submit(session, input, selectedModel, available, newId);
    SentRequests(session, input, selectedModel, available, newId);
    if w.Sent? {
      var m := Trim(input);
      var s1 := EnsureActive(session.state, newId);
      AsWrittenWindow(s1, m);
      RepeatedTail(GetChatHistory(ActiveChat(s1), ContextSize),
                   GetChatHistory(ActiveChat(AddMessageToState(s1, m, UserSender)), ContextSize), UserTurn(m));
    }
  }

  /** What the two versions send, once the guard and the listing check pass. */
  lemma SentRequests(session: Session, input: string, selectedModel: string,
                     available: seq<Relay.ModelInfo>, newId: string)
    ensures var w := SubmitAsWritten(session, input, selectedModel, available, newId);
      var r := Submit(session, input, selectedModel, available, newId);
      var m := Trim(input);
      var s1 := EnsureActive(session.state, newId);
      && (w.Sent? <==> r.Sent?)
      && (w.Sent? ==>
        && ActiveChat(s1).Some?
        && w.request.messages == GetChatHistory(ActiveChat(AddMessageToState(s1, m, UserSender)), ContextSize) + [UserTurn(m)]
        && r.request.messages == GetChatHistory(ActiveChat(s1), ContextSize) + [UserTurn(m)])
  {
  }

  /** Sequence bookkeeping for `SubmitAsWrittenRepeatsPrompt`. */
  lemma RepeatedTail(hb: seq<Message>, ha: seq<Message>, u: Message)
    requires ha == (if |hb| == ContextSize then hb[1..] else hb) + [u]
    ensures var ms := ha + [u];
      var before := (hb + [u])[..|hb + [u]| - 1];
      && before == hb
      && |ms| >= 2 && ms[|ms| - 1] == u && ms[|ms| - 2] == u
      && ms == (if |before| == ContextSize then before[1..] else before) + [u, u]
  {
    assert (hb + [u])[..|hb|] == hb;
  }

  /** The window read after the add is the window before it, slid by the new message. */
  lemma AsWrittenWindow(s1: State, m: string)
    requires ActiveChat(s1).Some?
    ensures var before := GetChatHistory(ActiveChat(s1), ContextSize);
      GetChatHistory(ActiveChat(AddMessageToState(s1, m, UserSender)), ContextSize)
        == (if |before| == ContextSize then before[1..] else before) + [UserTurn(m)]
  {
    var c := ActiveChat(s1).value;
    var e := ChatEntry(UserSender, m);
    ActiveAfterAdd(s1, m);
    var s2 := AddMessageToState(s1, m, UserSender);
    assert GetChatHistory(ActiveChat(s2), ContextSize) == GetChatHistory(Some(c.(history := c.history + [e])), ContextSize);
    WindowSlides(c, e, ContextSize);
  }

  /** The first message of a fresh session, as written, reaches the server as
      two identical user turns; corrected, as one. */
  lemma FirstMessageSentTwice()
    ensures var session := Session(State([], None), [], false);
      var listing := Relay.ModelsListing({Relay.OpenAI});
      && SubmitAsWritten(session, "Hallo", "gpt-4o", listing, "1").Sent?
      && SubmitAsWritten(session, "Hallo", "gpt-4o", listing, "1").request.messages == [UserTurn("Hallo"), UserTurn("Hallo")]
      && Submit(session, "Hallo", "gpt-4o", listing, "1").Sent?
      && Submit(session, "Hallo", "gpt-4o", listing, "1").request.messages == [UserTurn("Hallo")]
  {
    var session := Session(State([], None), [], false);
    var listing := Relay.ModelsListing({Relay.OpenAI});
    assert listing[10].id == "gpt-4o";
    assert Trim("Hallo") == "Hallo" by {
      TrimOfUnpadded("Hallo");
    }
    SubmitAsWrittenRepeatsPrompt(session, "Hallo", "gpt-4o", listing, "1");
    SubmitSendsContextThenPrompt(session, "Hallo", "gpt-4o", listing, "1");
    assert ActiveChat(EnsureActive(session.state, "1")).value.history == [];
  }

  /** A text without surrounding white space is its own trim. */
  lemma TrimOfUnpadded(s: string)
    requires |s| > 0 && !IsSpace(s[0]) && !IsSpace(s[|s| - 1])
    ensures Trim(s) == s
  {
    TrimShape(s);
    assert TrimStart(s) == s;
  }

  /** A message of only white space and no attachments is not sent. */
  lemma BlankInputIgnored(session: Session, input: string, selectedModel: string,
                          available: seq<Relay.ModelInfo>, newId: string)
    requires forall i :: 0 <= i < |input| ==> IsSpace(input[i])
    requires session.selectedFiles == []
    ensures Submit(session, input, selectedModel, available, newId) == Ignored
  {
    TrimEmptyIff(input);
  }

  /** Attachments are never uploaded: a submit with files but no text sends an
      empty prompt, which the server refuses with 400 "Prompt is required". */
  lemma FilesOnlySubmitIsRefused(session: Session, input: string, selectedModel: string,
                                 available: seq<Relay.ModelInfo>, newId: string,
                                 keys: set<Relay.Provider>, outcome: Relay.CallOutcome)
    requires forall i :: 0 <= i < |input| ==> IsSpace(input[i])
    requires session.selectedFiles != [] && selectedModel != "" && !session.isLoading
    requires Listed(available, selectedModel)
    ensures var r := Submit(session, input, selectedModel, available, newId);
      && r.Sent? && r.session.selectedFiles == []
      && Relay.HandleChat(r.request, keys, outcome) == Relay.Exchange(None, Relay.Refusal(400, Relay.PromptRequired, None, None))
  {
    TrimEmptyIff(input);
  }

  /** Requests from the client always carry at least one message, so the
      server's fallback to a lone prompt turn never applies to them. */
  lemma ClientRequestsCarryMessages(session: Session, input: string, selectedModel: string,
                                    available: seq<Relay.ModelInfo>, newId: string)
    ensures var r := Submit(session, input, selectedModel, available, newId);
      r.Sent? ==> (|r.request.messages| > 0
        && Relay.FallbackMessages(r.request.messages, r.request.prompt) == r.request.messages)
  {
  }

  // ---------------------------------------------------------------------------
  // Receiving

  /** What came back: the server's reply, or a failure before any reply. */
  datatype Delivery = Delivered(reply: Relay.Reply) | NetworkFailure(message: string)

  const ErrorPrefix := "Fehler: "

  /** The decimal digits of `n`. */
  function Decimal(n: nat): (r: string)
    ensures |r| > 0
    decreases n
  {
    var d := ['0', '1', '2', '3', '4', '5', '6', '7', '8', '9'][n % 10];
    if n < 10 then [d] else Decimal(n / 10) + [d]
  }

  /** The text the client records for a delivery: the answer itself, or
      "Fehler: " and the error (`errorData.error`, or the HTTP status when the
      body has none). */
  function ReplyText(d: Delivery): (t: string)
    ensures d.Delivered? && d.reply.Answer? ==> t == d.reply.response
    ensures d.NetworkFailure? ==> t == ErrorPrefix + d.message
    ensures d.Delivered? && d.reply.Refusal? ==>
      StartsWith(t, ErrorPrefix)
      && (d.reply.error != "" ==> t == ErrorPrefix + d.reply.error)
  {
    match d
    case Delivered(Answer(text, _, _)) => text
    case Delivered(Refusal(status, error, _, _)) =>
      var message := if error != "" then error
                     else "HTTP error! status: " + (if status < 0 then "-" + Decimal(-status) else Decimal(status));
      assert (ErrorPrefix + message)[..|ErrorPrefix|] == ErrorPrefix;
      ErrorPrefix + message
    case NetworkFailure(message) => ErrorPrefix + message
  }

  /** The reply is recorded in the active chat as an "ai" entry and the client
      is ready again; the attachments stay as they are. */
  function Receive(session: Session, d: Delivery): (r: Session)
    ensures !r.isLoading && r.selectedFiles == session.selectedFiles
    ensures r.state == AddMessageToState(session.state, ReplyText(d), AiSender)
  {
    Session(AddMessageToState(session.state, ReplyText(d), AiSender), session.selectedFiles, false)
  }

  /** A submit followed by its reply leaves the question and the answer as the
      last two entries of the chat. */
  lemma ConversationRoundTrip(session: Session, input: string, selectedModel: string,
                              available: seq<Relay.ModelInfo>, newId: string, d: Delivery)
    ensures var r := Submit(session, input, selectedModel, available, newId);
      r.Sent? ==>
        var after := Receive(r.session, d);
        var h := ActiveChat(EnsureActive(session.state, newId)).value.history;
        && ActiveChat(after.state).Some?
        && ActiveChat(after.state).value.history
           == h + [ChatEntry(UserSender, Trim(input)), ChatEntry(AiSender, ReplyText(d))]
  {
    var r := Submit(session, input, selectedModel, available, newId);
    if r.Sent? {
      SubmitSendsContextThenPrompt(session, input, selectedModel, available, newId);
      var s2 := r.session.state;
      assert ActiveValid(s2) by {
        var i := ActiveIndex(s2).value;
        assert s2.chats[i].id == s2.activeChatId.value;
      }
      AddMessageEndsHistory(s2, ReplyText(d), AiSender);
    }
  }
}

=== FILE: files.dfy ===
/** The attachment list of the client (script.js): `handleFileSelect`, the
    remove button of a file preview, and `getFileIcon`. */
module FileSelection {
  import opened Text

  /** A browser `File`, reduced to what the client reads: name, size in bytes
      and MIME type. */
  datatype SelectedFile = SelectedFile(name: string, size: nat, mimeType: string)

  /** 10 MB: larger files are refused. */
  const MaxFileSize: nat := 10 * 1024 * 1024

  predicate Small(f: SelectedFile) {
    f.size <= MaxFileSize
  }

  /** The names of the files, in order. */
  function Names(files: seq<SelectedFile>): (r: seq<string>)
    ensures |r| == |files|
    ensures forall i :: 0 <= i < |files| ==> r[i] == files[i].name
  {
    seq(|files|, i requires 0 <= i < |files| => files[i].name)
  }

  /** No two files share a name. */
  predicate UniqueNames(files: seq<SelectedFile>) {
    forall i, j :: 0 <= i < j < |files| ==> files[i].name != files[j].name
  }

  /** One iteration of the `forEach` of `handleFileSelect`: a file over the
      limit is refused, a file whose name is already selected is ignored, any
      other file is appended. */
  function Offer(selected: seq<SelectedFile>, f: SelectedFile): seq<SelectedFile> {
    if !Small(f) then selected
    else if f.name in Names(selected) then selected
    else selected + [f]
  }

  /** `handleFileSelect(files)` applied to the current selection. */
  function SelectFiles(selected: seq<SelectedFile>, files: seq<SelectedFile>): seq<SelectedFile>
    decreases |files|
  {
    if |files| == 0 then selected
    else Offer(SelectFiles(selected, files[..|files| - 1]), files[|files| - 1])
  }

  /** The alert shown for a file over the limit. */
  function TooLargeAlert(name: string): string {
    "Datei \"" + name + "\" ist zu gross. Maximum: 10MB"
  }

  /** The alerts `handleFileSelect(files)` shows, in order. */
  function Alerts(files: seq<SelectedFile>): seq<string>
    decreases |files|
  {
    if |files| == 0 then []
    else Alerts(files[..|files| - 1]) + (if Small(files[|files| - 1]) then [] else [TooLargeAlert(files[|files| - 1].name)])
  }

  /** The number of files over the limit, counted from the front. */
  function LargeCount(files: seq<SelectedFile>): nat
    decreases |files|
  {
    if |files| == 0 then 0 else (if Small(files[0]) then 0 else 1) + LargeCount(files[1..])
  }

  lemma {:induction false} LargeCountAppend(files: seq<SelectedFile>, f: SelectedFile)
    ensures LargeCount(files + [f]) == LargeCount(files) + (if Small(f) then 0 else 1)
    decreases |files|
  {
    if |files| > 0 {
      assert (files + [f])[1..] == files[1..] + [f];
      LargeCountAppend(files[1..], f);
    }
  }

  /** There is exactly one alert per file over the limit: each such file's
      alert names it, and every alert names a file over the limit. In
      particular there is none when every file is small enough. */
  lemma AlertsCountLarge(files: seq<SelectedFile>)
    ensures |Alerts(files)| == LargeCount(files)
    ensures |Alerts(files)| == 0 <==> forall i :: 0 <= i < |files| ==> Small(files[i])
    ensures forall i :: 0 <= i < |files| && !Small(files[i]) ==> TooLargeAlert(files[i].name) in Alerts(files)
    ensures forall k :: 0 <= k < |Alerts(files)| ==>
      exists i :: 0 <= i < |files| && !Small(files[i]) && Alerts(files)[k] == TooLargeAlert(files[i].name)
  {
    AlertsCount(files);
    AlertsForEveryLarge(files);
    AlertsOnlyForLarge(files);
  }

  lemma {:induction false} AlertsCount(files: seq<SelectedFile>)
    ensures |Alerts(files)| == LargeCount(files)
    ensures |Alerts(files)| == 0 <==> forall i :: 0 <= i < |files| ==> Small(files[i])
    decreases |files|
  {
    if |files| > 0 {
      var init := files[..|files| - 1];
      var f := files[|files| - 1];
      AlertsCount(init);
      assert files == init + [f];
      LargeCountAppend(init, f);
      assert forall i :: 0 <= i < |init| ==> init[i] == files[i];
    }
  }

  lemma {:induction false} AlertsForEveryLarge(files: seq<SelectedFile>)
    ensures forall i :: 0 <= i < |files| && !Small(files[i]) ==> TooLargeAlert(files[i].name) in Alerts(files)
    decreases |files|
  {
    if |files| > 0 {
      var init := files[..|files| - 1];
      AlertsForEveryLarge(init);
      assert forall i :: 0 <= i < |init| ==> init[i] == files[i];
    }
  }

  lemma {:induction false} AlertsOnlyForLarge(files: seq<SelectedFile>)
    ensures forall k :: 0 <= k < |Alerts(files)| ==>
      exists i :: 0 <= i < |files| && !Small(files[i]) && Alerts(files)[k] == TooLargeAlert(files[i].name)
    decreases |files|
  {
    if |files| > 0 {
      var init := files[..|files| - 1];
      var f := files[|files| - 1];
      AlertsOnlyForLarge(init);
      var a, a0 := Alerts(files), Alerts(init);
      assert a == a0 + (if Small(f) then [] else [TooLargeAlert(f.name)]);
      forall k | 0 <= k < |a|
        ensures exists i :: 0 <= i < |files| && !Small(files[i]) && a[k] == TooLargeAlert(files[i].name)
      {
        if k < |a0| {
          assert a[k] == a0[k];
          var i :| 0 <= i < |init| && !Small(init[i]) && a0[k] == TooLargeAlert(init[i].name);
          assert files[i] == init[i];
        } else {
          assert !Small(files[|files| - 1]) && a[k] == TooLargeAlert(f.name);
        }
      }
    } else {
      assert Alerts(files) == [];
    }
  }

  /** Selecting keeps what was selected, in place, and adds at most one file
      per offered file; every added file was offered and is small enough. */
  lemma {:induction false} SelectFilesExtends(selected: seq<SelectedFile>, files: seq<SelectedFile>)
    ensures var r := SelectFiles(selected, files);
      && |selected| <= |r| <= |selected| + |files|
      && r[..|selected|] == selected
      && (forall j :: |selected| <= j < |r| ==> r[j] in files && Small(r[j]))
    decreases |files|
  {
    if |files| > 0 {
      var init := files[..|files| - 1];
      SelectFilesExtends(selected, init);
      var before := SelectFiles(selected, init);
      forall j | |selected| <= j < |before|
        ensures before[j] in files
      {
        assert before[j] in init;
      }
    }
  }

  /** Selecting never produces two files of the same name. */
  lemma {:induction false} SelectFilesUnique(selected: seq<SelectedFile>, files: seq<SelectedFile>)
    requires UniqueNames(selected)
    ensures UniqueNames(SelectFiles(selected, files))
    decreases |files|
  {
    if |files| > 0 {
      var init := files[..|files| - 1];
      SelectFilesUnique(selected, init);
      var before := SelectFiles(selected, init);
      var f := files[|files| - 1];
      if Small(f) && f.name !in Names(before) {
        var r := before + [f];
        forall i, j | 0 <= i < j < |r|
          ensures r[i].name != r[j].name
        {
          if j == |before| {
            assert Names(before)[i] == r[i].name;
          }
        }
      }
    }
  }

  /** Every file small enough ends up selected, under its own name or because
      a file of that name already was. */
  lemma {:induction false} SelectFilesComplete(selected: seq<SelectedFile>, files: seq<SelectedFile>)
    ensures forall i :: 0 <= i < |files| && Small(files[i]) ==> files[i].name in Names(SelectFiles(selected, files))
    decreases |files|
  {
    if |files| > 0 {
      var init := files[..|files| - 1];
      SelectFilesComplete(selected, init);
      var before := SelectFiles(selected, init);
      var r := SelectFiles(selected, files);
      OfferKeeps(before, files[|files| - 1]);
      forall i | 0 <= i < |files| && Small(files[i])
        ensures files[i].name in Names(r)
      {
        if i < |init| {
          assert files[i] == init[i];
          var k :| 0 <= k < |before| && Names(before)[k] == files[i].name;
          assert Names(r)[k] == files[i].name;
        }
      }
    }
  }

  /** One offer keeps the selection as a prefix and leaves the offered file's name selected if it is small. */
  lemma OfferKeeps(selected: seq<SelectedFile>, f: SelectedFile)
    ensures var r := Offer(selected, f);
      |selected| <= |r| && r[..|selected|] == selected
      && (Small(f) ==> f.name in Names(r))
  {
    var r := Offer(selected, f);
    if Small(f) && f.name !in Names(selected) {
      assert Names(r)[|selected|] == f.name;
    }
  }

  /** Selecting twice from two lists is selecting once from both. */
  lemma {:induction false} SelectFilesConcat(selected: seq<SelectedFile>, a: seq<SelectedFile>, b: seq<SelectedFile>)
    ensures SelectFiles(selected, a + b) == SelectFiles(SelectFiles(selected, a), b)
    decreases |b|
  {
    if |b| == 0 {
      assert a + b == a;
    } else {
      assert (a + b)[..|a + b| - 1] == a + b[..|b| - 1];
      assert (a + b)[|a + b| - 1] == b[|b| - 1];
      SelectFilesConcat(selected, a, b[..|b| - 1]);
    }
  }

  /** A file whose name is already selected changes nothing. */
  lemma {:induction false} SelectKnownNames(selected: seq<SelectedFile>, files: seq<SelectedFile>)
    requires forall i :: 0 <= i < |files| ==> files[i].name in Names(selected)
    ensures SelectFiles(selected, files) == selected
    decreases |files|
  {
    if |files| > 0 {
      SelectKnownNames(selected, files[..|files| - 1]);
    }
  }

  /** Choosing the same files again changes nothing. */
  lemma SelectFilesIdempotent(selected: seq<SelectedFile>, files: seq<SelectedFile>)
    ensures SelectFiles(SelectFiles(selected, files), files) == SelectFiles(selected, files)
  {
    SelectFilesComplete(selected, files);
    SelectOfferedAgain(SelectFiles(selected, files), files);
  }

  /** A selection that already holds every small file's name is not changed by those files. */
  lemma {:induction false} SelectOfferedAgain(r: seq<SelectedFile>, files: seq<SelectedFile>)
    requires forall i :: 0 <= i < |files| && Small(files[i]) ==> files[i].name in Names(r)
    ensures SelectFiles(r, files) == r
    decreases |files|
  {
    if |files| > 0 {
      var init := files[..|files| - 1];
      assert forall i :: 0 <= i < |init| ==> init[i] == files[i];
      SelectOfferedAgain(r, init);
    }
  }

  /** The remove button of a preview: every file of that name is dropped. */
  function RemoveFile(selected: seq<SelectedFile>, name: string): (r: seq<SelectedFile>)
    ensures name !in Names(r)
    ensures |r| <= |selected|
    ensures forall f :: f in r <==> f in selected && f.name != name
    decreases |selected|
  {
    if |selected| == 0 then []
    else
      var rest := RemoveFile(selected[1..], name);
      if selected[0].name == name then rest
      else
        assert forall f :: f in [selected[0]] + rest <==> f == selected[0] || f in rest;
        [selected[0]] + rest
  }

  /** Removing a file that was just added restores the selection before it. */
  lemma {:induction false} RemoveUndoesOffer(selected: seq<SelectedFile>, f: SelectedFile)
    requires Small(f) && f.name !in Names(selected)
    ensures RemoveFile(Offer(selected, f), f.name) == selected
  {
    assert forall i :: 0 <= i < |selected| ==> Names(selected)[i] == selected[i].name;
    RemoveAbsent(selected, f.name);
    RemoveAppend(selected, [f], f.name);
  }

  /** Removing a name that no selected file carries changes nothing. */
  lemma {:induction false} RemoveAbsent(selected: seq<SelectedFile>, name: string)
    requires forall i :: 0 <= i < |selected| ==> selected[i].name != name
    ensures RemoveFile(selected, name) == selected
    decreases |selected|
  {
    if |selected| > 0 {
      var rest := selected[1..];
      assert forall i :: 0 <= i < |rest| ==> rest[i] == selected[i + 1];
      RemoveAbsent(rest, name);
      assert [selected[0]] + rest == selected;
    }
  }

  /** Removal distributes over concatenation. */
  lemma {:induction false} RemoveAppend(a: seq<SelectedFile>, b: seq<SelectedFile>, name: string)
    ensures RemoveFile(a + b, name) == RemoveFile(a, name) + RemoveFile(b, name)
    decreases |a|
  {
    if |a| == 0 {
      assert a + b == b;
    } else {
      assert (a + b)[0] == a[0];
      assert (a + b)[1..] == a[1..] + b;
      RemoveAppend(a[1..], b, name);
    }
  }

  // ---------------------------------------------------------------------------
  // Icons

  const ImageIcon := "fas fa-image"
  const PdfIcon := "fas fa-file-pdf"
  const WordIcon := "fas fa-file-word"
  const TextIcon := "fas fa-file-text"
  const CodeIcon := "fas fa-file-code"
  const GenericIcon := "fas fa-file"

  /** `getFileIcon`: the first matching test decides. */
  function FileIcon(fileType: string): (icon: string)
    ensures icon == ImageIcon <==> StartsWith(fileType, "image/")
    ensures icon == PdfIcon <==> !StartsWith(fileType, "image/") && Contains(fileType, "pdf")
    ensures icon == WordIcon <==>
      !StartsWith(fileType, "image/") && !Contains(fileType, "pdf")
      && (Contains(fileType, "word") || Contains(fileType, "document"))
    ensures icon == TextIcon <==>
      !StartsWith(fileType, "image/") && !Contains(fileType, "pdf")
      && !Contains(fileType, "word") && !Contains(fileType, "document")
      && (Contains(fileType, "text") || Contains(fileType, "plain"))
    ensures icon == CodeIcon <==>
      !StartsWith(fileType, "image/") && !Contains(fileType, "pdf")
      && !Contains(fileType, "word") && !Contains(fileType, "document")
      && !Contains(fileType, "text") && !Contains(fileType, "plain")
      && (Contains(fileType, "json") || Contains(fileType, "javascript"))
    ensures icon in {ImageIcon, PdfIcon, WordIcon, TextIcon, CodeIcon, GenericIcon}
  {
    if StartsWith(fileType, "image/") then ImageIcon
    else if Contains(fileType, "pdf") then PdfIcon
    else if Contains(fileType, "word") || Contains(fileType, "document") then WordIcon
    else if Contains(fileType, "text") || Contains(fileType, "plain") then TextIcon
    else if Contains(fileType, "json") || Contains(fileType, "javascript") then CodeIcon
    else GenericIcon
  }

  /** Because the "text" test comes before the "javascript" one, a script
      typed "text/javascript" is shown with the text icon, not the code icon. */
  lemma ScriptTypedAsTextGetsTextIcon()
    ensures FileIcon(ScriptType) == TextIcon
  {
    ScriptTypeFacts();
    TextIconWhen(ScriptType);
  }

  /** The MIME type browsers commonly give a JavaScript file. */
  const ScriptType := "text/javascript"

  lemma ScriptTypeFacts()
    ensures !StartsWith(ScriptType, "image/") && Contains(ScriptType, "text")
    ensures !Contains(ScriptType, "pdf") && !Contains(ScriptType, "word") && !Contains(ScriptType, "document")
  {
    var t := ScriptType;
    assert t[0] == 't';
    StartsWithContains(t, "text");
    ScriptTypeLetters();
    NotContainsMissingChar(t, "pdf", 'f');
    NotContainsMissingChar(t, "word", 'w');
    NotContainsMissingChar(t, "document", 'd');
  }

  lemma ScriptTypeLetters()
    ensures 'f' !in ScriptType && 'w' !in ScriptType && 'd' !in ScriptType
  {
    assert ScriptType == "text" + "/javascript";
    assert 'f' !in "text" && 'w' !in "text" && 'd' !in "text";
  }

  lemma TextIconWhen(t: string)
    requires !StartsWith(t, "image/") && !Contains(t, "pdf") && !Contains(t, "word")
    requires !Contains(t, "document") && Contains(t, "text")
    ensures FileIcon(t) == TextIcon
  {
  }
}

=== FILE: messages.dfy ===
/** The provider-agnostic chat turn that the client sends and the relay forwards. */
module Messages {

  /** One turn of a conversation, `{ role, content }` in the source. */
  datatype Message = Message(role: string, content: string)

  const UserRole := "user"
  const AssistantRole := "assistant"
  const SystemRole := "system"

  /** The turn `{ role: "user", content }`. */
  function UserTurn(content: string): (m: Message)
    ensures m.role == UserRole && m.content == content
  {
    Message(UserRole, content)
  }
}

=== FILE: perplexity.dfy ===
/** `normalizePerplexityMessages` (server/server.js): Perplexity accepts an
    optional leading system turn followed by user and assistant turns, so the
    relay merges every run of user turns into one turn and drops other roles.

    The loop of the source is modelled by `Step`/`Run`; `Reference` is an
    independent, run-by-run description of the same output, and the lemmas
    below prove that the two agree and derive the promised invariants. */
module PerplexityTurns {
  import opened Text
  import opened Messages
  import opened Seqs

  /** Separator placed between the contents of merged user turns. */
  const TurnSeparator := "\n\n"

  // ---------------------------------------------------------------------------
  // The loop as written

  /** The loop state: the turns emitted so far and the `userBuffer` text of the
      user turns not yet emitted. */
  datatype Pending = Pending(normalized: seq<Message>, userBuffer: string)

  /** `userBuffer += (userBuffer ? "\n\n" : "") + content` */
  function Append(buffer: string, content: string): string {
    buffer + (if buffer != "" then TurnSeparator else "") + content
  }

  /** The user turn a non-empty buffer becomes; an empty buffer emits nothing. */
  function Emit(buffer: string): (r: seq<Message>)
    ensures |r| <= 1
    ensures |r| == 1 <==> buffer != ""
    ensures |r| == 1 ==> r[0] == UserTurn(buffer)
  {
    if buffer != "" then [UserTurn(buffer)] else []
  }

  /** One iteration over `rest`: a user turn is buffered, an assistant turn
      flushes the buffer and is kept as it is, any other role is skipped. */
  function Step(p: Pending, m: Message): Pending {
    if m.role == UserRole then Pending(p.normalized, Append(p.userBuffer, m.content))
    else if m.role == AssistantRole then Pending(p.normalized + Emit(p.userBuffer) + [m], "")
    else p
  }

  /** The loop over `ms`, starting from `p`. */
  function Run(p: Pending, ms: seq<Message>): Pending
    decreases |ms|
  {
    if |ms| == 0 then p else Run(Step(p, ms[0]), ms[1..])
  }

  /** After the loop the buffer is flushed once more. */
  function Finish(p: Pending): seq<Message> {
    p.normalized + Emit(p.userBuffer)
  }

  predicate StartsWithSystem(messages: seq<Message>) {
    |messages| > 0 && messages[0].role == SystemRole
  }

  /** The leading system turn, if there is one. */
  function SystemPart(messages: seq<Message>): (r: seq<Message>)
    ensures |r| <= 1 && |r| <= |messages| && r == messages[..|r|]
    ensures |r| == 1 <==> StartsWithSystem(messages)
  {
    if StartsWithSystem(messages) then messages[..1] else []
  }

  /** The turns after the leading system turn (`rest` in the source). */
  function Turns(messages: seq<Message>): seq<Message> {
    messages[|SystemPart(messages)|..]
  }

  /** `normalizePerplexityMessages(messages, prompt)`. The `prompt` argument is
      accepted but never read, as in the source. */
  function NormalizeMessages(messages: seq<Message>, prompt: string): seq<Message> {
    SystemPart(messages) + Finish(Run(Pending([], ""), Turns(messages)))
  }

  // ---------------------------------------------------------------------------
  // An independent description, one run of user turns at a time

  predicate Conversational(m: Message) {
    m.role == UserRole || m.role == AssistantRole
  }

  predicate AllConversational(ms: seq<Message>) {
    forall i :: 0 <= i < |ms| ==> Conversational(ms[i])
  }

  /** The user and assistant turns of `ms`, in order: every other role is dropped. */
  function Conversation(ms: seq<Message>): (r: seq<Message>)
    ensures AllConversational(r)
    ensures |r| <= |ms|
    decreases |ms|
  {
    if |ms| == 0 then []
    else (if Conversational(ms[0]) then [ms[0]] else []) + Conversation(ms[1..])
  }

  /** The length of the run of user turns at the front of `ys`. */
  function LeadingUsers(ys: seq<Message>): (k: nat)
    ensures k <= |ys|
    decreases |ys|
  {
    if |ys| > 0 && ys[0].role == UserRole then 1 + LeadingUsers(ys[1..]) else 0
  }

  /** The leading run is all user turns and is maximal. */
  lemma {:induction false} LeadingUsersRun(ys: seq<Message>)
    ensures var k := LeadingUsers(ys);
      && (forall i :: 0 <= i < k ==> ys[i].role == UserRole)
      && (k < |ys| ==> ys[k].role != UserRole)
    decreases |ys|
  {
    if |ys| > 0 && ys[0].role == UserRole {
      LeadingUsersRun(ys[1..]);
    }
  }

  function Contents(ys: seq<Message>): (cs: seq<string>)
    ensures |cs| == |ys|
  {
    seq(|ys|, i requires 0 <= i < |ys| => ys[i].content)
  }

  /** `cs` without its leading empty strings. */
  function DropLeadingEmpty(cs: seq<string>): (r: seq<string>)
    ensures |r| == 0 || r[0] != ""
    decreases |cs|
  {
    if |cs| > 0 && cs[0] == "" then DropLeadingEmpty(cs[1..]) else cs
  }

  /** The text of a merged run: empty contents at the front of the run add
      nothing; from the first non-empty content on, every content is joined
      with a blank line, an empty one included. */
  function MergeRun(cs: seq<string>): string {
    Join(DropLeadingEmpty(cs), TurnSeparator)
  }

  /** Each run of user turns becomes one user turn carrying the run's merged
      text, or nothing if that text is empty; assistant turns are kept. */
  function Reference(ys: seq<Message>): seq<Message>
    decreases |ys|, 1
  {
    var k := LeadingUsers(ys);
    Emit(MergeRun(Contents(ys[..k]))) + Rest(ys[k..])
  }

  /** What follows a run: the turn that ends it, then the reference output of
      the remainder. */
  function Rest(zs: seq<Message>): seq<Message>
    decreases |zs|, 0
  {
    if |zs| == 0 then [] else [zs[0]] + Reference(zs[1..])
  }

  /** What `Reference` produces after the leading run. */
  function AfterRun(ys: seq<Message>): seq<Message> {
    Rest(ys[LeadingUsers(ys)..])
  }

  /** `Rest` from a position inside the conversation. */
  lemma RestAt(ys: seq<Message>, k: nat)
    requires k < |ys|
    ensures Rest(ys[k..]) == [ys[k]] + Reference(ys[k + 1..])
  {
    assert ys[k..][1..] == ys[k + 1..];
  }

  // ---------------------------------------------------------------------------
  // The buffer is the merge of the run read so far

  lemma {:induction false} DropLeadingEmptyAppend(cs: seq<string>, t: seq<string>)
    ensures DropLeadingEmpty(cs + t)
         == if DropLeadingEmpty(cs) == [] then DropLeadingEmpty(t) else DropLeadingEmpty(cs) + t
    decreases |cs|
  {
    if |cs| == 0 {
      assert cs + t == t;
    } else if cs[0] == "" {
      assert (cs + t)[1..] == cs[1..] + t;
      DropLeadingEmptyAppend(cs[1..], t);
    }
  }

  /** A merged run is empty exactly when all its contents are empty ones at the front. */
  lemma MergeRunEmpty(cs: seq<string>)
    ensures MergeRun(cs) == "" <==> DropLeadingEmpty(cs) == []
  {
    var d := DropLeadingEmpty(cs);
    if d != [] {
      JoinStartsWithFirst(d, TurnSeparator);
    }
  }

  /** Appending to the buffer is merging one more content into the run. */
  lemma MergeRunAppend(cs: seq<string>, c: string)
    ensures MergeRun(cs + [c]) == Append(MergeRun(cs), c)
  {
    DropLeadingEmptyAppend(cs, [c]);
    MergeRunEmpty(cs);
    var d := DropLeadingEmpty(cs);
    if d == [] {
      assert [c][1..] == [];
    } else {
      JoinAppend(d, c, TurnSeparator);
    }
  }

  // ---------------------------------------------------------------------------
  // The loop agrees with the run-by-run description

  /** A user turn in front of a conversation joins its leading run. */
  lemma LeadingRunUser(x: Message, ys: seq<Message>)
    requires x.role == UserRole
    ensures var k := LeadingUsers(ys);
      && LeadingUsers([x] + ys) == k + 1
      && Contents(([x] + ys)[..k + 1]) == [x.content] + Contents(ys[..k])
      && AfterRun([x] + ys) == AfterRun(ys)
  {
    var k := LeadingUsers(ys);
    assert ([x] + ys)[1..] == ys;
    assert ([x] + ys)[..k + 1] == [x] + ys[..k];
    ContentsCons(x, ys[..k]);
    ConsDrop(x, ys, k);
  }

  lemma ContentsCons(x: Message, zs: seq<Message>)
    ensures Contents([x] + zs) == [x.content] + Contents(zs)
  {
    var l, r := Contents([x] + zs), [x.content] + Contents(zs);
    assert forall i :: 0 <= i < |l| ==> l[i] == r[i] by {
      forall i | 0 <= i < |l|
        ensures l[i] == r[i]
      {
        if i > 0 {
          assert ([x] + zs)[i] == zs[i - 1];
        }
      }
    }
  }

  /** An assistant turn in front of a conversation ends an empty leading run. */
  lemma LeadingRunAssistant(x: Message, ys: seq<Message>)
    requires x.role == AssistantRole
    ensures LeadingUsers([x] + ys) == 0
    ensures AfterRun([x] + ys) == [x] + Reference(ys)
  {
    assert ([x] + ys)[1..] == ys;
    assert ([x] + ys)[0..] == [x] + ys;
  }

  /** The claim of `RunAgrees` for one starting state and input. */
  predicate RunMatches(n: seq<Message>, cs: seq<string>, xs: seq<Message>) {
    var ys := Conversation(xs);
    Finish(Run(Pending(n, MergeRun(cs)), xs))
      == n + Emit(MergeRun(cs + Contents(ys[..LeadingUsers(ys)]))) + AfterRun(ys)
  }

  /** Running the loop from any state whose buffer is the merge of `cs` gives
      what the reference gives for the conversation, with `cs` prepended to its
      first run. */
  lemma {:induction false} RunAgrees(n: seq<Message>, cs: seq<string>, xs: seq<Message>)
    ensures RunMatches(n, cs, xs)
    decreases |xs|, 1
  {
    if |xs| == 0 {
      var ys := Conversation(xs);
      assert ys == [];
      assert cs + Contents(ys[..0]) == cs;
    } else if xs[0].role == UserRole {
      RunAgreesUser(n, cs, xs);
    } else if xs[0].role == AssistantRole {
      RunAgreesAssistant(n, cs, xs);
    } else {
      assert Conversation(xs) == Conversation(xs[1..]);
      assert Step(Pending(n, MergeRun(cs)), xs[0]) == Pending(n, MergeRun(cs));
      RunAgrees(n, cs, xs[1..]);
    }
  }

  lemma {:induction false} RunAgreesUser(n: seq<Message>, cs: seq<string>, xs: seq<Message>)
    requires |xs| > 0 && xs[0].role == UserRole
    ensures RunMatches(n, cs, xs)
    decreases |xs|, 0
  {
    var x := xs[0];
    var ys := Conversation(xs);
    var ys' := Conversation(xs[1..]);
    var k' := LeadingUsers(ys');
    var p := Pending(n, MergeRun(cs));
    var cs' := cs + [x.content];
    assert Finish(Run(p, xs)) == Finish(Run(Pending(n, MergeRun(cs')), xs[1..])) by {
      MergeRunAppend(cs, x.content);
      assert Step(p, x) == Pending(n, MergeRun(cs'));
    }
    RunAgrees(n, cs', xs[1..]);
    assert ys == [x] + ys';
    LeadingRunUser(x, ys');
    AppendAssoc(cs, [x.content], Contents(ys'[..k']));
  }

  lemma {:induction false} RunAgreesAssistant(n: seq<Message>, cs: seq<string>, xs: seq<Message>)
    requires |xs| > 0 && xs[0].role == AssistantRole
    ensures RunMatches(n, cs, xs)
    decreases |xs|, 0
  {
    var x := xs[0];
    var ys := Conversation(xs);
    var ys' := Conversation(xs[1..]);
    var k' := LeadingUsers(ys');
    var e := Emit(MergeRun(cs));
    var p := Pending(n, MergeRun(cs));
    var n' := n + e + [x];
    var lhs := Finish(Run(p, xs));
    assert lhs == Finish(Run(Pending(n', MergeRun([])), xs[1..])) by {
      assert MergeRun([]) == "";
      assert Step(p, x) == Pending(n', MergeRun([]));
    }
    RunAgrees(n', [], xs[1..]);
    var e' := Emit(MergeRun(Contents(ys'[..k'])));
    var a' := AfterRun(ys');
    assert lhs == n' + e' + a' by {
      AppendEmpty(Contents(ys'[..k']));
    }
    ReferenceSplit(ys');
    var tail := Reference(ys');
    AppendAssoc(n', e', a');
    assert ys == [x] + ys';
    LeadingRunAssistant(x, ys');
    assert cs + Contents(ys[..0]) == cs;
    AppendAssoc(n + e, [x], tail);
    AppendAssoc(n, e, [x] + tail);
  }

  /** `Reference` is the leading run's turn followed by `AfterRun`. */
  lemma ReferenceSplit(ys: seq<Message>)
    ensures Reference(ys) == Emit(MergeRun(Contents(ys[..LeadingUsers(ys)]))) + AfterRun(ys)
  {
  }

  /** The relay's output is the system turn, if any, followed by the reference
      description of the remaining conversation; in particular `prompt` has no
      influence on it. */
  lemma NormalizeAgrees(messages: seq<Message>, prompt: string)
    ensures NormalizeMessages(messages, prompt)
         == SystemPart(messages) + Reference(Conversation(Turns(messages)))
  {
    var ys := Conversation(Turns(messages));
    var c := Contents(ys[..LeadingUsers(ys)]);
    RunAgrees([], [], Turns(messages));
    assert MergeRun([]) == "";
    assert [] + c == c;
    ReferenceSplit(ys);
    assert RunMatches([], [], Turns(messages));
    assert Finish(Run(Pending([], ""), Turns(messages))) == Reference(ys);
  }

  // ---------------------------------------------------------------------------
  // Properties of the reference

  /** The turns at `i` and `i + 1` are both user turns. */
  predicate UserPair(ms: seq<Message>, i: int)
    requires 0 <= i < |ms| - 1
  {
    ms[i].role == UserRole && ms[i + 1].role == UserRole
  }

  /** No two neighbouring turns are both user turns. */
  predicate NoAdjacentUsers(ms: seq<Message>) {
    forall i :: 0 <= i < |ms| - 1 ==> !UserPair(ms, i)
  }

  /** Every user turn carries some text. */
  predicate UserTurnsNonEmpty(ms: seq<Message>) {
    forall i :: 0 <= i < |ms| ==> ms[i].role == UserRole ==> ms[i].content != ""
  }

  /** The assistant turns of `ms`, in order. */
  function Assistants(ms: seq<Message>): seq<Message>
    decreases |ms|
  {
    if |ms| == 0 then []
    else (if ms[0].role == AssistantRole then [ms[0]] else []) + Assistants(ms[1..])
  }

  lemma {:induction false} AssistantsConcat(a: seq<Message>, b: seq<Message>)
    ensures Assistants(a + b) == Assistants(a) + Assistants(b)
    decreases |a|
  {
    if |a| == 0 {
      assert a + b == b;
    } else {
      assert (a + b)[1..] == a[1..] + b;
      AssistantsConcat(a[1..], b);
      var h := if a[0].role == AssistantRole then [a[0]] else [];
      AppendAssoc(h, Assistants(a[1..]), Assistants(b));
    }
  }

  lemma {:induction false} AssistantsOfUsers(ms: seq<Message>)
    requires forall i :: 0 <= i < |ms| ==> ms[i].role == UserRole
    ensures Assistants(ms) == []
    decreases |ms|
  {
    if |ms| > 0 {
      AssistantsOfUsers(ms[1..]);
    }
  }

  /** Dropping other roles keeps every assistant turn. */
  lemma {:induction false} AssistantsOfConversation(ms: seq<Message>)
    ensures Assistants(Conversation(ms)) == Assistants(ms)
    decreases |ms|
  {
    if |ms| > 0 {
      var head := if Conversational(ms[0]) then [ms[0]] else [];
      AssistantsConcat(head, Conversation(ms[1..]));
      AssistantsOfConversation(ms[1..]);
    }
  }

  /** One unfolding of `Reference` on a user/assistant conversation: the
      leading run's turn `e`, then (unless the run is everything) the assistant
      turn that ends the run and the reference output of what follows it. */
  lemma ReferenceStep(ys: seq<Message>)
    requires AllConversational(ys)
    ensures var k := LeadingUsers(ys);
      var e := Emit(MergeRun(Contents(ys[..k])));
      && (forall i :: 0 <= i < k ==> ys[i].role == UserRole)
      && |e| <= k
      && (k == |ys| ==> Reference(ys) == e)
      && (k < |ys| ==>
            && ys[k].role == AssistantRole
            && AllConversational(ys[k + 1..])
            && Reference(ys) == e + ([ys[k]] + Reference(ys[k + 1..])))
  {
    var k := LeadingUsers(ys);
    LeadingUsersRun(ys);
    EmitWithinRun(ys);
    if k < |ys| {
      RestAt(ys, k);
      assert Conversational(ys[k]);
      ConversationalSuffix(ys, k + 1);
    } else {
      assert ys[k..] == [];
    }
  }

  /** The leading run emits at most as many turns as it has. */
  lemma EmitWithinRun(ys: seq<Message>)
    ensures |Emit(MergeRun(Contents(ys[..LeadingUsers(ys)])))| <= LeadingUsers(ys)
  {
    if LeadingUsers(ys) == 0 {
      assert ys[..0] == [];
      assert DropLeadingEmpty([]) == [];
    }
  }

  lemma ConversationalSuffix(ys: seq<Message>, j: nat)
    requires AllConversational(ys) && j <= |ys|
    ensures AllConversational(ys[j..])
  {
    forall i | 0 <= i < |ys| - j
      ensures Conversational(ys[j..][i])
    {
      assert ys[j..][i] == ys[j + i];
    }
  }

  /** A user turn, an assistant turn and then a conversation without
      neighbouring user turns has none either. */
  lemma NoAdjacentAround(e: seq<Message>, a: Message, t: seq<Message>)
    requires |e| <= 1 && a.role == AssistantRole && NoAdjacentUsers(t)
    ensures NoAdjacentUsers(e + ([a] + t))
  {
    var r := e + ([a] + t);
    forall i | 0 <= i < |r| - 1
      ensures !UserPair(r, i)
    {
      if i == |e| - 1 {
        assert r[i + 1] == a;
      } else if i == |e| {
        assert r[i] == a;
      } else {
        assert r[i] == t[i - |e| - 1] && r[i + 1] == t[i - |e|];
        assert !UserPair(t, i - |e| - 1);
      }
    }
  }

  /** A user turn emitted from a buffer, an assistant turn and then a
      conversation without empty user turns has none either. */
  lemma NonEmptyAround(buffer: string, a: Message, t: seq<Message>)
    requires a.role == AssistantRole && UserTurnsNonEmpty(t)
    ensures UserTurnsNonEmpty(Emit(buffer) + ([a] + t))
  {
    var e := Emit(buffer);
    var r := e + ([a] + t);
    forall i | 0 <= i < |r| && r[i].role == UserRole
      ensures r[i].content != ""
    {
      if i > |e| {
        assert r[i] == t[i - |e| - 1];
      }
    }
  }

  lemma ConversationalAround(e: seq<Message>, a: Message, t: seq<Message>)
    requires |e| <= 1 && (|e| == 1 ==> e[0].role == UserRole)
    requires a.role == AssistantRole && AllConversational(t)
    ensures AllConversational(e + ([a] + t))
  {
    var r := e + ([a] + t);
    forall i | 0 <= i < |r|
      ensures Conversational(r[i])
    {
      if i > |e| {
        assert r[i] == t[i - |e| - 1];
      }
    }
  }

  lemma {:induction false} ReferenceConversational(ys: seq<Message>)
    requires AllConversational(ys)
    ensures AllConversational(Reference(ys))
    decreases |ys|
  {
    ReferenceStep(ys);
    var k := LeadingUsers(ys);
    if k < |ys| {
      ReferenceConversational(ys[k + 1..]);
      ConversationalAround(Emit(MergeRun(Contents(ys[..k]))), ys[k], Reference(ys[k + 1..]));
    }
  }

  lemma {:induction false} ReferenceNoAdjacentUsers(ys: seq<Message>)
    requires AllConversational(ys)
    ensures NoAdjacentUsers(Reference(ys))
    decreases |ys|
  {
    ReferenceStep(ys);
    var k := LeadingUsers(ys);
    if k < |ys| {
      ReferenceNoAdjacentUsers(ys[k + 1..]);
      NoAdjacentAround(Emit(MergeRun(Contents(ys[..k]))), ys[k], Reference(ys[k + 1..]));
    }
  }

  lemma {:induction false} ReferenceUserTurnsNonEmpty(ys: seq<Message>)
    requires AllConversational(ys)
    ensures UserTurnsNonEmpty(Reference(ys))
    decreases |ys|
  {
    ReferenceStep(ys);
    var k := LeadingUsers(ys);
    if k < |ys| {
      ReferenceUserTurnsNonEmpty(ys[k + 1..]);
      NonEmptyAround(MergeRun(Contents(ys[..k])), ys[k], Reference(ys[k + 1..]));
    }
  }

  lemma {:induction false} ReferenceLength(ys: seq<Message>)
    requires AllConversational(ys)
    ensures |Reference(ys)| <= |ys|
    decreases |ys|
  {
    ReferenceStep(ys);
    var k := LeadingUsers(ys);
    if k < |ys| {
      ReferenceLength(ys[k + 1..]);
    }
  }

  lemma {:induction false} ReferenceAssistants(ys: seq<Message>)
    requires AllConversational(ys)
    ensures Assistants(Reference(ys)) == Assistants(ys)
    decreases |ys|
  {
    ReferenceStep(ys);
    var k := LeadingUsers(ys);
    var e := Emit(MergeRun(Contents(ys[..k])));
    AssistantsOfUsers(e);
    AssistantsOfUsers(ys[..k]);
    if k == |ys| {
      assert ys[..k] == ys;
    } else {
      var a := ys[k];
      var rest := ys[k + 1..];
      var t := Reference(rest);
      ReferenceAssistants(rest);
      calc {
        Assistants(Reference(ys));
        Assistants(e + ([a] + t));
        { AssistantsConcat(e, [a] + t); AppendEmpty(Assistants([a] + t)); }
        Assistants([a] + t);
        { AssistantsConcat([a], t); }
        Assistants([a]) + Assistants(rest);
        { AssistantsConcat([a], rest); }
        Assistants([a] + rest);
        { AssistantsConcat(ys[..k], [a] + rest); AppendEmpty(Assistants([a] + rest)); }
        Assistants(ys[..k] + ([a] + rest));
        { SplitAt(ys, k); }
        Assistants(ys);
      }
    }
  }

  /** `ys` is its prefix, the element at `k` and its suffix. */
  lemma SplitAt(ys: seq<Message>, k: nat)
    requires k < |ys|
    ensures ys == ys[..k] + ([ys[k]] + ys[k + 1..])
  {
  }

  lemma NoAdjacentUsersSuffix(ys: seq<Message>, j: nat)
    requires NoAdjacentUsers(ys) && j <= |ys|
    ensures NoAdjacentUsers(ys[j..])
  {
    var t := ys[j..];
    forall i | 0 <= i < |t| - 1
      ensures !UserPair(t, i)
    {
      assert !UserPair(ys, i + j);
    }
  }

  /** An already normal conversation is its own reference output. */
  lemma {:induction false} ReferenceOfNormal(ys: seq<Message>)
    requires AllConversational(ys) && NoAdjacentUsers(ys) && UserTurnsNonEmpty(ys)
    ensures Reference(ys) == ys
    decreases |ys|
  {
    if |ys| > 0 {
      if ys[0].role == UserRole {
        ReferenceOfNormalUserFirst(ys);
      } else {
        ReferenceOfNormalAssistantFirst(ys);
      }
    }
  }

  lemma {:induction false} ReferenceOfNormalAssistantFirst(ys: seq<Message>)
    requires AllConversational(ys) && NoAdjacentUsers(ys) && UserTurnsNonEmpty(ys)
    requires |ys| > 0 && ys[0].role != UserRole
    ensures Reference(ys) == ys
    decreases |ys|, 0
  {
    ReferenceStep(ys);
    var t := ys[1..];
    NoAdjacentUsersSuffix(ys, 1);
    ReferenceOfNormal(t);
    assert Reference(ys) == [ys[0]] + Reference(t);
    assert ys == [ys[0]] + t;
  }

  lemma {:induction false} ReferenceOfNormalUserFirst(ys: seq<Message>)
    requires AllConversational(ys) && NoAdjacentUsers(ys) && UserTurnsNonEmpty(ys)
    requires |ys| > 0 && ys[0].role == UserRole
    ensures Reference(ys) == ys
    decreases |ys|, 0
  {
    ReferenceStep(ys);
    var k := LeadingUsers(ys);
    assert k == 1 by {
      if k > 1 {
        assert UserPair(ys, 0);
      }
    }
    assert Emit(MergeRun(Contents(ys[..1]))) == [ys[0]] by {
      SingleUserRun(ys);
    }
    if |ys| == 1 {
      assert ys == [ys[0]];
    } else {
      var t := ys[2..];
      NoAdjacentUsersSuffix(ys, 2);
      ReferenceOfNormal(t);
      assert Reference(ys) == [ys[0]] + ([ys[1]] + Reference(t));
      SplitAt(ys, 1);
      assert ys[..1] == [ys[0]];
    }
  }

  /** A run of one user turn with text is that very turn. */
  lemma SingleUserRun(ys: seq<Message>)
    requires |ys| > 0 && ys[0].role == UserRole && ys[0].content != ""
    ensures Emit(MergeRun(Contents(ys[..1]))) == [ys[0]]
  {
    var c := ys[0].content;
    assert Contents(ys[..1]) == [c];
    assert DropLeadingEmpty([c]) == [c];
    assert MergeRun([c]) == c;
  }

  lemma {:induction false} ConversationOfConversational(ys: seq<Message>)
    requires AllConversational(ys)
    ensures Conversation(ys) == ys
    decreases |ys|
  {
    if |ys| > 0 {
      ConversationOfConversational(ys[1..]);
      assert ys == [ys[0]] + ys[1..];
    }
  }

  // ---------------------------------------------------------------------------
  // The promises of the relay

  /** The leading system turn, if any, is kept as the first turn, and no other
      system turn reaches Perplexity. */
  lemma NormalizeSystemTurn(messages: seq<Message>, prompt: string)
    ensures var r := NormalizeMessages(messages, prompt);
      && (StartsWithSystem(messages) ==> |r| > 0 && r[0] == messages[0])
      && (forall i :: 0 <= i < |r| && r[i].role == SystemRole ==> i == 0 && StartsWithSystem(messages))
  {
    var r := NormalizeMessages(messages, prompt);
    var sys := SystemPart(messages);
    var body := Reference(Conversation(Turns(messages)));
    NormalizeAgrees(messages, prompt);
    ReferenceConversational(Conversation(Turns(messages)));
    forall i | |sys| <= i < |r|
      ensures r[i].role != SystemRole
    {
      assert r[i] == body[i - |sys|];
    }
  }

  /** After the system turn come only user and assistant turns, never two user
      turns in a row and never an empty user turn, and nothing is longer than
      the input. */
  lemma NormalizeTurns(messages: seq<Message>, prompt: string)
    ensures var r := NormalizeMessages(messages, prompt);
      var s := |SystemPart(messages)|;
      && |r| <= |messages|
      && AllConversational(r[s..])
      && NoAdjacentUsers(r[s..])
      && UserTurnsNonEmpty(r[s..])
  {
    var r := NormalizeMessages(messages, prompt);
    var sys := SystemPart(messages);
    var ys := Conversation(Turns(messages));
    NormalizeAgrees(messages, prompt);
    assert r[|sys|..] == Reference(ys);
    ReferenceConversational(ys);
    ReferenceNoAdjacentUsers(ys);
    ReferenceUserTurnsNonEmpty(ys);
    ReferenceLength(ys);
  }

  /** The assistant turns Perplexity receives are exactly those of the input,
      unchanged and in the same order. */
  lemma NormalizeKeepsAssistants(messages: seq<Message>, prompt: string)
    ensures Assistants(NormalizeMessages(messages, prompt)) == Assistants(messages)
  {
    var sys := SystemPart(messages);
    var turns := Turns(messages);
    var ys := Conversation(turns);
    NormalizeAgrees(messages, prompt);
    ReferenceAssistants(ys);
    AssistantsOfConversation(turns);
    AssistantsConcat(sys, Reference(ys));
    assert messages == sys + turns;
    AssistantsConcat(sys, turns);
  }

  /** Normalising twice is normalising once. */
  lemma NormalizeIdempotent(messages: seq<Message>, prompt: string, prompt': string)
    ensures NormalizeMessages(NormalizeMessages(messages, prompt), prompt')
         == NormalizeMessages(messages, prompt)
  {
    var r := NormalizeMessages(messages, prompt);
    var sys := SystemPart(messages);
    var ys := Conversation(Turns(messages));
    var body := Reference(ys);
    NormalizeAgrees(messages, prompt);
    ReferenceConversational(ys);
    ReferenceNoAdjacentUsers(ys);
    ReferenceUserTurnsNonEmpty(ys);
    assert r == sys + body;
    assert SystemPart(r) == sys && Turns(r) == body by {
      if !StartsWithSystem(messages) && |body| > 0 {
        assert Conversational(body[0]);
      }
    }
    ConversationOfConversational(body);
    ReferenceOfNormal(body);
    NormalizeAgrees(r, prompt');
  }
}

=== FILE: relay.dfy ===
/** The `/api/chat` handler of server/server.js and the lookup tables around
    it: request validation, the per-provider request shapes, the API-key
    checks, the error-to-status classification, the upload allowlist, the
    extension-to-MIME table, display names, provider availability and the
    `/api/models` listing.

    The process environment is modelled as the set of providers whose API key
    is set; what a provider answers (or throws) is a parameter. */
module Relay {
  import opened Wrappers
  import opened Text
  import opened Messages
  import PerplexityTurns
  import AnthropicPrompt

  // ---------------------------------------------------------------------------
  // Providers and the model table

  datatype Provider = Gemini | Anthropic | Perplexity | DeepSeek | OpenRouter | OpenAI

  /** The provider's name as it appears in the model table and in `/api/models`. */
  function ProviderName(p: Provider): string {
    match p
    case Gemini => "gemini"
    case Anthropic => "anthropic"
    case Perplexity => "perplexity"
    case DeepSeek => "deepseek"
    case OpenRouter => "openrouter"
    case OpenAI => "openai"
  }

  /** The provider a name denotes, if any. */
  function ProviderNamed(name: string): (r: Option<Provider>)
    ensures r.Some? ==> ProviderName(r.value) == name
  {
    if name == "gemini" then Some(Gemini)
    else if name == "anthropic" then Some(Anthropic)
    else if name == "perplexity" then Some(Perplexity)
    else if name == "deepseek" then Some(DeepSeek)
    else if name == "openrouter" then Some(OpenRouter)
    else if name == "openai" then Some(OpenAI)
    else None
  }

  /** Names and providers correspond one to one. */
  lemma ProviderNameRoundTrip(p: Provider)
    ensures ProviderNamed(ProviderName(p)) == Some(p)
  {
  }

  /** How the error message for a missing key names the provider's key. */
  function KeyOwner(p: Provider): string {
    match p
    case Gemini => "Google"
    case Anthropic => "Anthropic"
    case Perplexity => "Perplexity"
    case DeepSeek => "DeepSeek"
    case OpenRouter => "OpenRouter"
    case OpenAI => "OpenAI"
  }

  datatype ModelConfig = ModelConfig(
    provider: Provider,
    actualModel: string,
    supportsVision: bool,
    description: Option<string>)

  /** `modelConfig`, in the order of its keys. */
  const ModelTable: seq<(string, ModelConfig)> := [
    ("gemini-2.5-pro-preview-06-05", ModelConfig(Gemini, "gemini-1.5-pro", true, None)),
    ("gemini-1.5-flash", ModelConfig(Gemini, "gemini-1.5-flash", true, None)),
    ("deepseek-r1", ModelConfig(OpenRouter, "deepseek/deepseek-r1-0528:free", false, None)),
    ("deepseek-V3", ModelConfig(OpenRouter, "deepseek/deepseek-chat-v3-0324:free", false, None)),
    ("claude-opus-4", ModelConfig(Anthropic, "claude-opus-4-20250514", true, Some("Claude Opus 4 (Direct API)"))),
    ("sonar", ModelConfig(Perplexity, "sonar", false, Some("Perplexity Sonar"))),
    ("sonar-pro", ModelConfig(Perplexity, "sonar-pro", false, Some("Perplexity Sonar Pro"))),
    ("deepseek-chat", ModelConfig(DeepSeek, "deepseek-chat", false, Some("DeepSeek Chat (direkte API)"))),
    ("deepseek-coder", ModelConfig(DeepSeek, "deepseek-coder", false, Some("DeepSeek Coder (direkte API)"))),
    ("llama-3.3-8b", ModelConfig(OpenRouter, "meta-llama/llama-3.3-8b-instruct:free", false, None)),
    ("gpt-4o", ModelConfig(OpenAI, "gpt-4o", false, Some("OpenAI GPT-4o (direkte API)"))),
    ("gpt-4-turbo", ModelConfig(OpenAI, "gpt-4.1", false, Some("OpenAI GPT-4.1 (direkte API)")))
  ]

  /** `Object.keys(modelConfig)` */
  function ModelIds(): (ids: seq<string>)
    ensures |ids| == |ModelTable|
    ensures forall i :: 0 <= i < |ids| ==> ids[i] == ModelTable[i].0
  {
    seq(|ModelTable|, i requires 0 <= i < |ModelTable| => ModelTable[i].0)
  }

  /** No model id is empty. */
  lemma ModelIdsNonEmpty()
    ensures forall i :: 0 <= i < |ModelTable| ==> ModelTable[i].0 != ""
  {
  }

  /** The configuration stored under `id` in the table itself. */
  function FindModel(id: string): (r: Option<ModelConfig>)
    ensures r.Some? <==> id in ModelIds()
    ensures r.Some? ==> exists i :: 0 <= i < |ModelTable| && ModelTable[i] == (id, r.value)
  {
    FindModelFrom(id, 0)
  }

  function FindModelFrom(id: string, from: nat): (r: Option<ModelConfig>)
    requires from <= |ModelTable|
    ensures r.Some? <==> exists i :: from <= i < |ModelTable| && ModelTable[i].0 == id
    ensures r.Some? ==> exists i :: from <= i < |ModelTable| && ModelTable[i] == (id, r.value)
    decreases |ModelTable| - from
  {
    if from == |ModelTable| then None
    else if ModelTable[from].0 == id then Some(ModelTable[from].1)
    else FindModelFrom(id, from + 1)
  }

  // ---------------------------------------------------------------------------
  // Requests, replies and the provider calls

  /** The JSON body of `POST /api/chat`; an absent or empty `prompt` or `model`
      is the empty string, an absent `messages` the empty list. */
  datatype ChatRequest = ChatRequest(prompt: string, model: string, messages: seq<Message>)

  /** What the handler answers: the provider's text with status 200, or an
      error body with its status. */
  datatype Reply =
    | Answer(response: string, model: string, provider: Provider)
    | Refusal(status: int, error: string, details: Option<string>, availableModels: Option<seq<string>>)

  function StatusOf(r: Reply): int {
    if r.Answer? then 200 else r.status
  }

  /** What a provider call returned: the text, or the message of the error it threw. */
  datatype CallOutcome = Responded(text: string) | Threw(message: string)

  const AnthropicMaxTokens := 4000

  /** The request sent to a provider, without the uploaded files. */
  datatype ProviderCall =
    | GeminiCall(model: string, prompt: string)
    | AnthropicCall(model: string, maxTokens: int, system: string, userText: seq<string>)
    | PerplexityCall(model: string, messages: seq<Message>)
    | ChatCompletionCall(provider: Provider, model: string, messages: seq<Message>)

  /** The client's history, or a single user turn with the prompt when there is none. */
  function FallbackMessages(messages: seq<Message>, prompt: string): (r: seq<Message>)
    ensures |r| > 0
    ensures |messages| > 0 ==> r == messages
    ensures |messages| == 0 ==> r == [UserTurn(prompt)]
  {
    if |messages| > 0 then messages else [UserTurn(prompt)]
  }

  /** The request each provider receives for a validated chat request. */
  function PrepareCall(config: ModelConfig, req: ChatRequest): ProviderCall {
    match config.provider
    case Gemini => GeminiCall(config.actualModel, req.prompt)
    case Anthropic =>
      var ms := FallbackMessages(req.messages, req.prompt);
      AnthropicCall(config.actualModel, AnthropicMaxTokens, AnthropicPrompt.SystemPrompt(ms), AnthropicPrompt.UserText(ms))
    case Perplexity => PerplexityCall(config.actualModel, PerplexityTurns.NormalizeMessages(req.messages, req.prompt))
    case DeepSeek => ChatCompletionCall(DeepSeek, config.actualModel, FallbackMessages(req.messages, req.prompt))
    case OpenRouter => ChatCompletionCall(OpenRouter, config.actualModel, req.messages + [UserTurn(req.prompt)])
    case OpenAI => ChatCompletionCall(OpenAI, config.actualModel, FallbackMessages(req.messages, req.prompt))
  }

  /** What each provider is sent: DeepSeek and OpenAI get the history, or the
      prompt alone when the history is empty; OpenRouter gets the history with
      the prompt appended; Perplexity gets the normalised history, whatever the
      prompt; Gemini gets the prompt and never the history; Anthropic's last
      turn is the prompt when the history is empty. */
  lemma PrepareCallShapes(config: ModelConfig, req: ChatRequest)
    ensures var c := PrepareCall(config, req);
      && (config.provider in {DeepSeek, OpenAI} ==>
            c.ChatCompletionCall? && c.provider == config.provider && |c.messages| > 0
            && (|req.messages| > 0 ==> c.messages == req.messages)
            && (|req.messages| == 0 ==> c.messages == [UserTurn(req.prompt)]))
      && (config.provider == OpenRouter ==>
            c.ChatCompletionCall? && c.messages[..|req.messages|] == req.messages
            && c.messages[|req.messages|] == UserTurn(req.prompt) && |c.messages| == |req.messages| + 1)
      && (config.provider == Perplexity ==>
            c == PrepareCall(config, req.(prompt := "")))
      && (config.provider == Gemini ==>
            c == PrepareCall(config, req.(messages := [])))
      && (config.provider == Anthropic && |req.messages| == 0 ==>
            c.AnthropicCall? && c.system == AnthropicPrompt.BasePrompt
            && (req.prompt != "" ==> c.userText == [req.prompt]))
  {
    var c := PrepareCall(config, req);
    if config.provider == Anthropic && |req.messages| == 0 {
      assert FallbackMessages(req.messages, req.prompt) == [UserTurn(req.prompt)];
    }
  }

  // ---------------------------------------------------------------------------
  // Validation

  const PromptRequired := "Prompt is required"
  const ModelRequired := "Model is required"

  function BadRequest(error: string, available: Option<seq<string>>): Reply {
    Refusal(400, error, None, available)
  }

  /** The three checks of the handler, in order: a prompt, a model, a model
      the table knows. */
  function Validate(req: ChatRequest): (r: Result<ModelConfig, Reply>)
    ensures r.Failure? ==> r.error.Refusal? && r.error.status == 400
    ensures req.prompt == "" ==> r == Failure(BadRequest(PromptRequired, None))
    ensures req.prompt != "" && req.model == "" ==> r == Failure(BadRequest(ModelRequired, None))
    ensures req.prompt != "" && req.model != "" ==>
      (r.Success? <==> req.model in ModelIds())
      && (r.Failure? ==> r.error.availableModels == Some(ModelIds()))
    ensures r.Success? ==> FindModel(req.model) == Some(r.value)
  {
    if req.prompt == "" then Failure(BadRequest(PromptRequired, None))
    else if req.model == "" then Failure(BadRequest(ModelRequired, None))
    else match FindModel(req.model)
      case None => Failure(BadRequest("Unsupported model: " + req.model, Some(ModelIds())))
      case Some(config) => Success(config)
  }

  // ---------------------------------------------------------------------------
  // Error classification

  const InvalidApiKey := "Invalid API key"
  const QuotaExceeded := "API quota exceeded"
  const GenerationFailed := "Failed to generate response"

  /** The `catch` of the handler: the first matching test decides. */
  function ClassifyFailure(message: string): (r: Reply)
    ensures r.Refusal?
    ensures r.status == 401 <==> Contains(message, "API key")
    ensures r.status == 429 <==>
      !Contains(message, "API key") && (Contains(message, "quota") || Contains(message, "rate limit"))
    ensures r.status == 500 <==>
      !Contains(message, "API key") && !Contains(message, "quota") && !Contains(message, "rate limit")
    ensures r.status == 500 && Contains(message, "not configured") ==> r.error == message && r.details == None
    ensures r.status == 500 && !Contains(message, "not configured") ==>
      r.error == GenerationFailed && r.details == Some(message)
    ensures r.status != 500 ==> r.details == Some(message)
  {
    if Contains(message, "API key") then Refusal(401, InvalidApiKey, Some(message), None)
    else if Contains(message, "quota") || Contains(message, "rate limit") then Refusal(429, QuotaExceeded, Some(message), None)
    else if Contains(message, "not configured") then Refusal(500, message, None, None)
    else Refusal(500, GenerationFailed, Some(message), None)
  }

  /** Because the "API key" test comes first, a provider's own
      "… API key not configured" error is reported as an invalid key (401),
      never through the "not configured" branch. */
  lemma MissingKeyErrorIsUnauthorized(owner: string)
    ensures ClassifyFailure(owner + " API key not configured").status == 401
  {
    var m := owner + " API key not configured";
    assert m == (owner + " ") + "API key" + " not configured";
    ContainsMiddle(owner + " ", "API key", " not configured");
    KeyMentionIsUnauthorized(m);
  }

  lemma KeyMentionIsUnauthorized(message: string)
    requires Contains(message, "API key")
    ensures ClassifyFailure(message).status == 401
  {
  }

  /** The message `callAnthropic` rethrows for a failed API call with the
      given HTTP status. */
  function AnthropicFailure(status: int, message: string): string {
    if status == 401 then "Anthropic API key is invalid"
    else if status == 429 then "Anthropic API rate limit exceeded"
    else if status == 400 then "Anthropic API request error: " + message
    else "Anthropic API error: " + message
  }

  /** Anthropic's rejection of the key is answered with 401. */
  lemma AnthropicKeyRejected(message: string)
    ensures ClassifyFailure(AnthropicFailure(401, message)).status == 401
  {
    var t := AnthropicFailure(401, message);
    assert t == "Anthropic " + "API key" + " is invalid";
    ContainsMiddle("Anthropic ", "API key", " is invalid");
    KeyMentionIsUnauthorized(t);
  }

  /** Anthropic's rate limit is answered with 429. */
  lemma AnthropicRateLimited(message: string)
    ensures ClassifyFailure(AnthropicFailure(429, message)).status == 429
  {
    var t := AnthropicFailure(429, message);
    RateLimitMessagePieces();
    ContainsMiddle("Anthropic API ", "rate limit", " exceeded");
    assert "API key"[4] == 'k';
    assert 'k' !in "Anthropic API " && 'k' !in "rate limit" && 'k' !in " exceeded";
    NotContainsMissingChar(t, "API key", 'k');
    RateLimitMentionIsThrottled(t);
  }

  /** The rate-limit message, cut around the words the classifier looks for. */
  lemma RateLimitMessagePieces()
    ensures "Anthropic API rate limit exceeded" == "Anthropic API " + "rate limit" + " exceeded"
  {
    assert "rate limit exceeded" == "rate limit" + " exceeded";
  }

  lemma RateLimitMentionIsThrottled(message: string)
    requires !Contains(message, "API key") && Contains(message, "rate limit")
    ensures ClassifyFailure(message).status == 429
  {
  }

  // ---------------------------------------------------------------------------
  // The handler

  /** What the handler did: the provider call it made, if any, and its reply. */
  datatype Exchange = Exchange(call: Option<ProviderCall>, reply: Reply)

  /** After validation: refuse when the provider's key is not set, otherwise
      call the provider and answer with its text or the classified error. */
  function Dispatch(config: ModelConfig, req: ChatRequest, keys: set<Provider>, outcome: CallOutcome): (x: Exchange)
    ensures x.call.Some? <==> config.provider in keys
    ensures x.call.Some? ==> x.call.value == PrepareCall(config, req)
    ensures config.provider !in keys ==>
      x.reply == Refusal(500, KeyOwner(config.provider) + " API key not configured", None, None)
    ensures x.call.Some? && outcome.Responded? ==> x.reply == Answer(outcome.text, req.model, config.provider)
    ensures x.call.Some? && outcome.Threw? ==> x.reply == ClassifyFailure(outcome.message)
  {
    if config.provider !in keys then
      Exchange(None, Refusal(500, KeyOwner(config.provider) + " API key not configured", None, None))
    else
      var call := PrepareCall(config, req);
      match outcome
      case Responded(text) => Exchange(Some(call), Answer(text, req.model, config.provider))
      case Threw(message) => Exchange(Some(call), ClassifyFailure(message))
  }

  /** `POST /api/chat`. */
  function HandleChat(req: ChatRequest, keys: set<Provider>, outcome: CallOutcome): Exchange {
    match Validate(req)
    case Failure(reply) => Exchange(None, reply)
    case Success(config) => Dispatch(config, req, keys, outcome)
  }

  /** The statuses the handler can answer with, and when each occurs: 400
      exactly when validation fails, a provider is called exactly when
      validation passes and its key is set, and 200 exactly when that call
      returned text. */
  lemma HandleChatStatus(req: ChatRequest, keys: set<Provider>, outcome: CallOutcome)
    ensures var x := HandleChat(req, keys, outcome);
      && StatusOf(x.reply) in {200, 400, 401, 429, 500}
      && (StatusOf(x.reply) == 400 <==> Validate(req).Failure?)
      && (x.call.Some? <==> Validate(req).Success? && Validate(req).value.provider in keys)
      && (StatusOf(x.reply) == 200 <==> x.call.Some? && outcome.Responded?)
  {
    var x := HandleChat(req, keys, outcome);
    if Validate(req).Success? && Validate(req).value.provider in keys && outcome.Threw? {
      var r := ClassifyFailure(outcome.message);
      assert r.status in {401, 429, 500};
    }
  }

  /** Once validation passes and the key is set, the handler forwards the
      provider's text with the requested model and its provider, and answers
      a thrown error with its classification. */
  lemma HandleChatForwards(req: ChatRequest, keys: set<Provider>, outcome: CallOutcome)
    ensures var x := HandleChat(req, keys, outcome);
      && (x.call.Some? ==> Validate(req).Success?)
      && (x.call.Some? && outcome.Responded? ==>
            x.reply == Answer(outcome.text, req.model, Validate(req).value.provider))
      && (x.call.Some? && outcome.Threw? ==> x.reply == ClassifyFailure(outcome.message))
  {
  }

  /** A request naming a model the table does not hold is refused with 400 and
      the list of every configured model id, before any key is looked at. */
  lemma UnknownModelIsRejected(req: ChatRequest, keys: set<Provider>, outcome: CallOutcome)
    requires req.prompt != "" && req.model != "" && req.model !in ModelIds()
    ensures HandleChat(req, keys, outcome)
         == Exchange(None, Refusal(400, "Unsupported model: " + req.model, None, Some(ModelIds())))
  {
  }

  // ---------------------------------------------------------------------------
  // The model lookup as written

  /** The names every plain JavaScript object inherits from `Object.prototype`. */
  const PrototypeMembers: set<string> := {
    "constructor", "__proto__", "hasOwnProperty", "isPrototypeOf", "propertyIsEnumerable",
    "toString", "toLocaleString", "valueOf",
    "__defineGetter__", "__defineSetter__", "__lookupGetter__", "__lookupSetter__"
  }

  /** The value of `modelConfig[model]` in JavaScript: an entry of the table,
      an inherited member (a truthy function or object with no `provider`), or
      `undefined`. */
  datatype Lookup = OwnEntry(config: ModelConfig) | Inherited | Absent

  function LookupAsWritten(id: string): Lookup {
    match FindModel(id)
    case Some(config) => OwnEntry(config)
    case None => if id in PrototypeMembers then Inherited else Absent
  }

  /** The handler as written: an inherited member passes the `!config` test,
      its `provider` is `undefined`, and the `switch` falls to its default
      branch. */
  function HandleChatAsWritten(req: ChatRequest, keys: set<Provider>, outcome: CallOutcome): Exchange {
    if req.prompt == "" then Exchange(None, BadRequest(PromptRequired, None))
    else if req.model == "" then Exchange(None, BadRequest(ModelRequired, None))
    else match LookupAsWritten(req.model)
      case Absent => Exchange(None, BadRequest("Unsupported model: " + req.model, Some(ModelIds())))
      case Inherited => Exchange(None, Refusal(500, "Unknown provider: undefined", None, None))
      case OwnEntry(config) => Dispatch(config, req, keys, outcome)
  }

  /** The discrepancy: asking for model "constructor" is answered with a 500
      "Unknown provider" error instead of the 400 "Unsupported model" refusal
      every other unknown name gets. */
  lemma ConstructorModelAsWritten(keys: set<Provider>, outcome: CallOutcome)
    ensures StatusOf(HandleChatAsWritten(ChatRequest("Hallo", "constructor", []), keys, outcome).reply) == 500
    ensures StatusOf(HandleChat(ChatRequest("Hallo", "constructor", []), keys, outcome).reply) == 400
  {
    assert "constructor" !in ModelIds();
  }

  /** Apart from the inherited names, the handler as written and the
      corrected one agree. */
  lemma AsWrittenAgreesOtherwise(req: ChatRequest, keys: set<Provider>, outcome: CallOutcome)
    requires req.model !in PrototypeMembers
    ensures HandleChatAsWritten(req, keys, outcome) == HandleChat(req, keys, outcome)
  {
  }

  // ---------------------------------------------------------------------------
  // Uploads and file types

  /** `allowedTypes` of the upload `fileFilter`. */
  const AllowedUploadTypes: seq<string> := [
    "image/jpeg", "image/jpg", "image/png", "image/gif", "image/webp",
    "text/plain", "text/csv", "text/markdown",
    "application/pdf",
    "application/msword",
    "application/vnd.openxmlformats-officedocument.wordprocessingml.document",
    "application/vnd.ms-excel",
    "application/vnd.openxmlformats-officedocument.spreadsheetml.sheet",
    "application/json",
    "application/javascript",
    "text/html",
    "text/css",
    "application/xml"
  ]

  datatype FilterVerdict = Accept | Reject(message: string)

  /** The upload filter: a file passes exactly when its MIME type is on the allowlist. */
  function FileFilter(mimeType: string): (v: FilterVerdict)
    ensures v.Accept? <==> mimeType in AllowedUploadTypes
    ensures v.Reject? ==> v.message == "Dateityp " + mimeType + " ist nicht erlaubt"
  {
    if mimeType in AllowedUploadTypes then Accept
    else Reject("Dateityp " + mimeType + " ist nicht erlaubt")
  }

  /** `mimetypeMap` of the chat handler, keyed by lower-case extension. */
  const MimeTypes: map<string, string> := map[
    ".txt" := "text/plain", ".md" := "text/markdown", ".json" := "application/json",
    ".js" := "application/javascript", ".html" := "text/html", ".css" := "text/css",
    ".jpg" := "image/jpeg", ".jpeg" := "image/jpeg", ".png" := "image/png",
    ".gif" := "image/gif", ".webp" := "image/webp", ".pdf" := "application/pdf"
  ]

  const OctetStream := "application/octet-stream"

  /** The MIME type the handler assigns to an uploaded file from its extension:
      every known extension, in any letter case, gives a type the upload filter
      accepts; any other extension gives the generic binary type, which it
      does not. */
  function MimeTypeFor(extension: string): (mime: string)
    ensures mime in AllowedUploadTypes <==> Lower(extension) in MimeTypes
    ensures mime == OctetStream <==> Lower(extension) !in MimeTypes
    ensures Lower(extension) in MimeTypes ==> mime == MimeTypes[Lower(extension)]
  {
    var ext := Lower(extension);
    if ext in MimeTypes then
      assert MimeTypes[ext] in AllowedUploadTypes && MimeTypes[ext] != OctetStream;
      MimeTypes[ext]
    else
      assert OctetStream !in AllowedUploadTypes;
      OctetStream
  }

  /** The extension's letter case does not matter. */
  lemma MimeTypeIgnoresCase(extension: string)
    ensures MimeTypeFor(extension) == MimeTypeFor(Lower(extension))
  {
    LowerIdempotent(extension);
  }

  // ---------------------------------------------------------------------------
  // Model listing

  /** `displayNames` of `getModelDisplayName`. */
  const DisplayNames: map<string, string> := map[
    "gemini-2.5-pro-preview-06-05" := "Gemini 1.5 Pro",
    "gemini-1.5-flash" := "Gemini 1.5 Flash",
    "deepseek-r1" := "DeepSeek R1",
    "deepseek-V3" := "DeepSeek V3",
    "claude-opus-4" := "Claude Opus 4 (Direct API)",
    "sonar" := "Perplexity Sonar",
    "sonar-pro" := "Perplexity Sonar Pro",
    "llama-3.3-8b" := "Llama 3.3 8B"
  ]

  /** The mapped display name, or the id itself. */
  function DisplayName(id: string): (name: string)
    ensures id in DisplayNames ==> name == DisplayNames[id]
    ensures id !in DisplayNames ==> name == id
    ensures name != "" <==> id != ""
  {
    if id in DisplayNames then DisplayNames[id] else id
  }

  /** `isModelAvailable`: a provider name is available exactly when it names a
      provider whose key is set; unknown names never are. */
  function IsModelAvailable(providerName: string, keys: set<Provider>): (b: bool)
    ensures b <==> exists p :: p in keys && ProviderName(p) == providerName
  {
    match ProviderNamed(providerName)
    case Some(p) =>
      assert forall q :: ProviderName(q) == providerName ==> q == p by {
        forall q | ProviderName(q) == providerName
          ensures q == p
        {
          ProviderNameRoundTrip(q);
        }
      }
      p in keys
    case None =>
      assert forall q :: ProviderName(q) != providerName by {
        forall q
          ensures ProviderName(q) != providerName
        {
          ProviderNameRoundTrip(q);
        }
      }
      false
  }

  /** One entry of `GET /api/models`. */
  datatype ModelInfo = ModelInfo(
    id: string,
    name: string,
    provider: string,
    available: bool,
    frontendOnly: bool,
    supportsVision: bool,
    description: Option<string>)

  function Describe(entry: (string, ModelConfig), keys: set<Provider>): ModelInfo {
    var (id, config) := entry;
    ModelInfo(id, DisplayName(id), ProviderName(config.provider),
              IsModelAvailable(ProviderName(config.provider), keys),
              false, config.supportsVision, config.description)
  }

  /** `GET /api/models`: one entry per table row, in table order, available
      exactly when that provider's key is set. */
  function ModelsListing(keys: set<Provider>): (r: seq<ModelInfo>)
    ensures |r| == |ModelTable|
    ensures forall i :: 0 <= i < |r| ==>
      && r[i].id == ModelTable[i].0
      && r[i].name == DisplayName(ModelTable[i].0)
      && r[i].provider == ProviderName(ModelTable[i].1.provider)
      && (r[i].available <==> ModelTable[i].1.provider in keys)
      && !r[i].frontendOnly
  {
    var r := seq(|ModelTable|, i requires 0 <= i < |ModelTable| => Describe(ModelTable[i], keys));
    assert forall i :: 0 <= i < |r| ==> (r[i].available <==> ModelTable[i].1.provider in keys) by {
      forall i | 0 <= i < |r|
        ensures r[i].available <==> ModelTable[i].1.provider in keys
      {
        ProviderNameRoundTrip(ModelTable[i].1.provider);
      }
    }
    r
  }

  /** The listing shows the mapped display name where there is one and the
      bare id for the four models without one. */
  lemma ListingNames(keys: set<Provider>)
    ensures var r := ModelsListing(keys);
      && r[0].name == "Gemini 1.5 Pro"
      && r[4].name == "Claude Opus 4 (Direct API)"
      && r[7].name == "deepseek-chat" && r[8].name == "deepseek-coder"
      && r[10].name == "gpt-4o" && r[11].name == "gpt-4-turbo"
  {
    var r := ModelsListing(keys);
    forall i | 0 <= i < |r|
      ensures r[i].name == DisplayName(ModelTable[i].0)
    {
    }
    UnmappedIds();
  }

  /** The four table ids that have no display name. */
  lemma UnmappedIds()
    ensures "deepseek-chat" !in DisplayNames && "deepseek-coder" !in DisplayNames
    ensures "gpt-4o" !in DisplayNames && "gpt-4-turbo" !in DisplayNames
  {
  }
}

=== FILE: seqs.dfy ===
/** Facts about sequence concatenation, stated once so that proofs can
    rearrange concatenations without unfolding sequence equality. */
module Seqs {

  lemma AppendAssoc<T>(a: seq<T>, b: seq<T>, c: seq<T>)
    ensures (a + b) + c == a + (b + c)
  {
  }

  lemma AppendEmpty<T>(a: seq<T>)
    ensures a + [] == a && [] + a == a
  {
  }

  /** Dropping one more element from a sequence with an element in front. */
  lemma ConsDrop<T>(x: T, ys: seq<T>, j: nat)
    requires j <= |ys|
    ensures ([x] + ys)[j + 1..] == ys[j..]
  {
  }
}

=== FILE: text.dfy ===
/** The few string operations of JavaScript that the chat relay and the chat
    client rely on: `startsWith`, `includes`, `Array.prototype.join`,
    `toLowerCase` (ASCII letters only) and `trim`. Strings are `seq<char>`. */
module Text {

  /** `s.startsWith(prefix)` */
  predicate StartsWith(s: string, prefix: string) {
    |prefix| <= |s| && s[..|prefix|] == prefix
  }

  /** `part` occurs in `s` starting at position `i`. */
  predicate OccursAt(s: string, part: string, i: int) {
    0 <= i <= |s| - |part| && s[i..i + |part|] == part
  }

  /** `s.includes(part)`: `part` occurs somewhere in `s` as a contiguous piece. */
  predicate Contains(s: string, part: string) {
    exists i | 0 <= i <= |s| :: OccursAt(s, part, i)
  }

  /** A witness position makes `Contains` hold. */
  lemma ContainsAt(s: string, part: string, i: int)
    requires 0 <= i <= |s| - |part|
    requires s[i..i + |part|] == part
    ensures Contains(s, part)
  {
    assert OccursAt(s, part, i);
  }

  /** A string contains whatever is written in its middle. */
  lemma ContainsMiddle(a: string, part: string, b: string)
    ensures Contains(a + part + b, part)
  {
    var s := a + part + b;
    assert s[|a|..|a| + |part|] == part;
    ContainsAt(s, part, |a|);
  }

  /** `part` inside `b` is also inside `a + b`. */
  lemma ContainsAfter(a: string, b: string, part: string)
    requires Contains(b, part)
    ensures Contains(a + b, part)
  {
    var j :| 0 <= j <= |b| && OccursAt(b, part, j);
    assert (a + b)[|a| + j..|a| + j + |part|] == b[j..j + |part|];
    ContainsAt(a + b, part, |a| + j);
  }

  /** A string lacking one of the characters of `part` does not contain it. */
  lemma NotContainsMissingChar(s: string, part: string, c: char)
    requires c in part && c !in s
    ensures !Contains(s, part)
  {
    var k :| 0 <= k < |part| && part[k] == c;
    forall i | 0 <= i <= |s|
      ensures !OccursAt(s, part, i)
    {
      if i <= |s| - |part| {
        assert s[i..i + |part|][k] == s[i + k] != c;
      }
    }
  }

  /** A string contains every one of its prefixes. */
  lemma StartsWithContains(s: string, prefix: string)
    requires StartsWith(s, prefix)
    ensures Contains(s, prefix)
  {
    ContainsAt(s, prefix, 0);
  }

  /** `parts.join(sep)`: the parts in order with `sep` between neighbours. */
  function Join(parts: seq<string>, sep: string): string
    decreases |parts|
  {
    if |parts| == 0 then ""
    else if |parts| == 1 then parts[0]
    else parts[0] + sep + Join(parts[1..], sep)
  }

  /** Joining one more part appends the separator and that part. */
  lemma {:induction false} JoinAppend(parts: seq<string>, p: string, sep: string)
    requires |parts| > 0
    ensures Join(parts + [p], sep) == Join(parts, sep) + sep + p
    decreases |parts|
  {
    if |parts| == 1 {
      assert parts + [p] == [parts[0], p];
      assert ([parts[0], p])[1..] == [p];
    } else {
      assert (parts + [p])[1..] == parts[1..] + [p];
      JoinAppend(parts[1..], p, sep);
    }
  }

  /** A join starts with its first part. */
  lemma {:induction false} JoinStartsWithFirst(parts: seq<string>, sep: string)
    requires |parts| > 0
    ensures StartsWith(Join(parts, sep), parts[0])
  {
    if |parts| > 1 {
      assert Join(parts, sep) == parts[0] + (sep + Join(parts[1..], sep));
    }
  }

  /** The ASCII part of `toLowerCase`. */
  function LowerChar(c: char): char {
    if 'A' <= c <= 'Z' then (c as int + 32) as char else c
  }

  /** `s.toLowerCase()` for ASCII upper-case letters; every other character is kept. */
  function Lower(s: string): (r: string)
    ensures |r| == |s|
    ensures forall i :: 0 <= i < |s| ==> r[i] == LowerChar(s[i])
    ensures forall i :: 0 <= i < |s| ==> !('A' <= r[i] <= 'Z')
  {
    seq(|s|, i requires 0 <= i < |s| => LowerChar(s[i]))
  }

  /** Lower-casing twice is lower-casing once. */
  lemma LowerIdempotent(s: string)
    ensures Lower(Lower(s)) == Lower(s)
  {
    var once := Lower(s);
    var twice := Lower(once);
    forall i | 0 <= i < |s|
      ensures twice[i] == once[i]
    {
      assert !('A' <= once[i] <= 'Z');
    }
  }

  /** The characters `String.prototype.trim` removes: ECMAScript WhiteSpace
      and LineTerminator code points. */
  predicate IsSpace(c: char) {
    c == '\t' || c == '\n' || c == '\U{000B}' || c == '\U{000C}' || c == '\r' || c == ' '
    || c == '\U{00A0}' || c == '\U{1680}' || ('\U{2000}' <= c <= '\U{200A}')
    || c == '\U{2028}' || c == '\U{2029}' || c == '\U{202F}' || c == '\U{205F}'
    || c == '\U{3000}' || c == '\U{FEFF}'
  }

  /** Drops leading white space: the result is the suffix of `s` after the
      longest all-space prefix. */
  function TrimStart(s: string): (r: string)
    ensures |r| <= |s| && r == s[|s| - |r|..]
    ensures forall i :: 0 <= i < |s| - |r| ==> IsSpace(s[i])
    ensures |r| == 0 || !IsSpace(r[0])
    decreases |s|
  {
    if |s| > 0 && IsSpace(s[0]) then TrimStart(s[1..]) else s
  }

  /** Drops trailing white space: the result is the prefix of `s` before the
      longest all-space suffix. */
  function TrimEnd(s: string): (r: string)
    ensures |r| <= |s| && r == s[..|r|]
    ensures forall i :: |r| <= i < |s| ==> IsSpace(s[i])
    ensures |r| == 0 || !IsSpace(r[|r| - 1])
    decreases |s|
  {
    if |s| > 0 && IsSpace(s[|s| - 1]) then TrimEnd(s[..|s| - 1]) else s
  }

  /** `s.trim()` */
  function Trim(s: string): string {
    TrimEnd(TrimStart(s))
  }

  /** A trimmed string is empty exactly when the input is all white space. */
  lemma TrimEmptyIff(s: string)
    ensures Trim(s) == "" <==> forall i :: 0 <= i < |s| ==> IsSpace(s[i])
  {
    var t := TrimStart(s);
    if Trim(s) == "" {
      assert |t| == 0;
    }
  }

  /** A trimmed string neither starts nor ends with white space, and is a
      contiguous piece of the input. */
  lemma TrimShape(s: string)
    ensures var r := Trim(s);
      && (|r| == 0 || (!IsSpace(r[0]) && !IsSpace(r[|r| - 1])))
      && Contains(s, r)
  {
    var t := TrimStart(s);
    var r := TrimEnd(t);
    var a := |s| - |t|;
    ContainsAt(s, r, a);
    if |r| > 0 {
      assert r[0] == t[0];
    }
  }

  /** Trimming is idempotent. */
  lemma TrimIdempotent(s: string)
    ensures Trim(Trim(s)) == Trim(s)
  {
    var r := Trim(s);
    TrimShape(s);
  }
}

=== FILE: wrappers.dfy ===
/** Failure-compatible wrappers used throughout the model: `Option` stands for
    JavaScript's `null`/`undefined`, `Result` for a value or an error reply. */
module Wrappers {

  datatype Option<+T> = None | Some(value: T)

  datatype Result<+R, +E> = Success(value: R) | Failure(error: E)
}
